=== FILE: README.md ===
# Undetected driver manager, modelled in Dafny

This project models the core of a Rust library that starts a browser
automation driver without the driver being recognisable as automated. The
library does four things:

- **Patcher** (`patch.dfy`, module `Patch`). It reads the downloaded driver
  executable. It finds every occurrence of the marker `cdc_`. It overwrites
  the 18 bytes after each marker with random letters. Then it writes the
  result under the patched name.
- **Capability builder** (`capabilities.dfy`, module `Capabilities`). This
  is an immutable record of launch options with documented defaults and
  one setter per option. Its conversion yields the ordered list of settings
  made on the control-protocol client's capability object.
  `get_capabilities.dfy` (module `LegacyCapabilities`) holds the older fixed
  list and relates it to the builder.
- **Fetcher** (`fetch.dfy`, module `Fetch`). It chooses the archive address
  from the installed browser version and the operating system. It then
  unpacks the archive's entries into the working directory.
- **Lifecycle** (`lifecycle.dfy`, module `Lifecycle`). One run goes like
  this:
  - download the driver if no downloaded driver is present;
  - patch it if the patched driver is absent;
  - start it on a random port in 2000..4999;
  - try to connect a bounded number of times, pausing 250 ms after each
    failed attempt;
  - on exhaustion, kill and reap the driver.

  `chrome_with_capabilities` makes one run. If that run fails, it tries to
  delete both driver files, ignoring failures, and makes a second, final
  run. A file whose deletion failed stays, and the second run then skips
  downloading or patching it.

Supporting modules:

- `base.dfy`: `Option`, `Result` and the integer widths (`byte`, `u8`,
  `u32`, `i32`).
- `text.dfy`: decimal formatting and its inverse parsers, Rust's `str`
  ordering, and splitting at a separator.
- `platform.dfy`: the host operating system.

Nothing here performs input or output. The models take the world as input:

- the random generator is a draw function;
- the network answers are values (the decoded manifest, the release text,
  the decoded archive entries);
- each file write, download, patch, driver start and connection attempt
  is an oracle outcome.

What the lifecycle does is recorded as a trace of events (`Fetch`,
`Patch`, `Spawn`, `Connect`, `Sleep`, `Kill`, `Wait`, `Remove`).

Four behaviours of the code are easy to misread:

- The protocol choice compares the version **string** with `"114"`
  character by character. It does not compare the numeric major version.
  So `"99.0.4844.51"` takes the new protocol (`Fetch.TwoDigitMajor`,
  `Fetch.ProtocolExamples`).
- Every archive entry is unpacked, not just the driver:
  - directory entries create directories;
  - every file entry is written under its last path component;
  - a later entry with the same name wins.

  See `Fetch.UnpackLastWriterWins` and `Fetch.UnpacksEveryFile`.
- A missing or non-string milestone version aborts (an `unwrap`). It is not
  a typed error.
- The patcher ignores a failed write of the destination and still
  succeeds. Only a failed create is an error.

## Model

| member | source | states |
|---|---|---|
| Patch.Markers | src/patch_chromedriver.rs:18-36 | The scan returns, in ascending order, exactly the offsets at which the original buffer spells `cdc_` |
| Patch.Letter | src/patch_chromedriver.rs:42-46 | Every letter written comes from the first 48 of the 52 letters, so it is in `a`-`z` or `A`-`V` and never `W`-`Z` |
| Patch.PatchBytes | src/patch_chromedriver.rs:13-54 | The patch fails with an underflow exactly when the buffer is shorter than 3 bytes. It succeeds exactly when every marker's 18-byte token fits in the buffer. Otherwise it names the first marker whose token runs past the end. On success the output has the input's length and the count equals the number of markers |
| Patch.FirstOverrun | src/patch_chromedriver.rs:18-31 | Finds the first marker, in scan order, whose 18-byte token runs past the end; the scan panics reading that token. There is such a marker exactly when some token does not fit, and every earlier marker's token fits |
| Patch.PatchAllFrame | src/patch_chromedriver.rs:48-53 | The overwrite loop keeps every byte outside all token windows and puts a drawable letter inside every window |
| Patch.PatchFrame | src/patch_chromedriver.rs:48-51 | A successful patch changes no byte outside the markers' token windows, the marker bytes included, and every byte inside a window becomes an `a`-`z`/`A`-`V` letter |
| Patch.LastTokenWins | src/patch_chromedriver.rs:48-51 | A byte ends up with the draw written by the last marker whose window holds it |
| Patch.PatchedTokenContents | src/patch_chromedriver.rs:48-51 | Byte `k` of the m-th marker's token holds draw number `18m + (k - p - 4)` unless a later token overlaps it |
| Patch.PatchCount | src/patch_chromedriver.rs:48-54 | The reported patch count is the number of distinct marker offsets |
| Patch.NoMarkersNoChange | src/patch_chromedriver.rs:37-54 | With no marker the output is the input, byte for byte, and the count is zero |
| Patch.UntouchedMarkerSurvives | src/patch_chromedriver.rs:18-36 | A marker outside every token is still a marker afterwards, since overwrites are computed from the original buffer |
| Patch.PatchChromedriver | src/patch_chromedriver.rs:5-65 | The source read is `chromedriver.exe` on Windows and `chromedriver` elsewhere, whatever the argument. A missing source, a panicking patch or a failed create is an error. On success the destination holds the patched bytes, or is left empty (truncated by the create) if the write failed, and every other file is unchanged |
| Capabilities.Default | src/capabilities.rs:144-156 | The defaults: no-sandbox and no-dev-shm on, window 1920x1080, the crate's user agent, banner hidden, search-engine screen skipped, no position, not headless (`new` returns them) |
| Capabilities.SetNoSandbox | src/capabilities.rs:97-100 | Sets its own option and leaves every other option unchanged |
| Capabilities.SetDisableDevShmUsage | src/capabilities.rs:102-105 | Sets its own option and leaves every other option unchanged |
| Capabilities.SetWindowSize | src/capabilities.rs:107-110 | Sets the window size and leaves every other option unchanged |
| Capabilities.SetUserAgent | src/capabilities.rs:112-115 | Sets the user agent and leaves every other option unchanged |
| Capabilities.SetHideChromeIsBeingControlled | src/capabilities.rs:117-123 | Sets its own option and leaves every other option unchanged |
| Capabilities.SetDisableSearchEngineChoiceScreen | src/capabilities.rs:125-131 | Sets its own option and leaves every other option unchanged |
| Capabilities.SetWindowPosition | src/capabilities.rs:133-136 | Sets the window position and leaves every other option unchanged |
| Capabilities.SetHeadless | src/capabilities.rs:138-141 | Sets headless mode and leaves every other option unchanged |
| Capabilities.PutWindowOffscreen | src/capabilities.rs:75-78 | Sets the position to (-32000, -32000) and nothing else |
| Capabilities.IntoChromeCapsLeadingSettings | src/capabilities.rs:32-38 | The no-sandbox and shared-memory settings are made exactly when their flags are set, no-sandbox first |
| Capabilities.IntoChromeCapsFixedArguments | src/capabilities.rs:40-50 | Right after the optional switches come the blink-features, window-size and user-agent arguments, always, in that order |
| Capabilities.IntoChromeCapsHidingSettings | src/capabilities.rs:52-61 | The infobar argument and the `excludeSwitches` option are both present exactly when the banner is hidden. The search-engine argument is present exactly when its flag is set |
| Capabilities.IntoChromeCapsPositionSetting | src/capabilities.rs:63-66 | A window-position argument for (x, y) is present exactly when the position is set to (x, y) |
| Capabilities.IntoChromeCapsHeadlessSetting | src/capabilities.rs:68-71 | The headless argument is present exactly in headless mode and is then the last setting |
| Capabilities.ParseArgText | src/capabilities.rs:40-69 | Every argument's text, including the formatted sizes and signed positions, reads back as that argument |
| Capabilities.ArgTextInjective | src/capabilities.rs:40-69 | Distinct arguments have distinct texts |
| Capabilities.IntoChromeCapsRoundTrip | src/capabilities.rs:30-72 | The conversion loses nothing: reading the settings list back gives the builder |
| Capabilities.IntoChromeCapsInjective | src/capabilities.rs:30-72 | Different builders give different settings lists |
| Text.ParseNatToString | src/capabilities.rs:43-46 | Formatting an unsigned number with `{}` and reading it back gives the number |
| Text.ParseIntToString | src/capabilities.rs:63-66 | Formatting a signed number with `{}` and reading it back gives the number |
| LegacyCapabilities.GetCapabilities | src/get_capabilities.rs:4-17 | The fixed list has seven settings and starts with no-sandbox and no-dev-shm. It holds the infobar argument and `excludeSwitches`. It holds no search-engine, headless or window-position argument |
| LegacyCapabilities.LegacyListIsBuilderList | src/get_capabilities.rs:4-17 | The fixed list equals the builder's conversion of its defaults with the search-engine switch turned off |
| LegacyCapabilities.DefaultsExtendLegacyList | src/get_capabilities.rs:4-17 | The builder's defaults give the fixed list followed by the search-engine argument |
| Fetch.ProtocolExamples | src/fetch_chromedriver.rs:10 | `113.0.5672.92` and `11.0.0` take the legacy protocol. `114…`, `115.0.5790.170` and `99.0.4844.51` take the new one |
| Fetch.ThreeDigitMajor | src/fetch_chromedriver.rs:10 | For a three-digit major version the string comparison picks the new protocol exactly when the major is at least 114 |
| Fetch.TwoDigitMajor | src/fetch_chromedriver.rs:10 | For a two-digit major version the string comparison picks the new protocol exactly when the major is at least 12 |
| Fetch.VersionFor | src/fetch_chromedriver.rs:16-18 | The lookup yields a version exactly when the milestone key is present and its version is a string |
| Fetch.NewPlatform | src/fetch_chromedriver.rs:21-34 | Linux, macOS and Windows have a platform name and any other system has none |
| Fetch.LegacySuffix | src/fetch_chromedriver.rs:45-58 | Linux, Windows and macOS have an archive suffix and any other system has none |
| Fetch.DriverUrl | src/fetch_chromedriver.rs:10-60 | For each protocol: when the address is produced, and that it is the new or the legacy address. A failed request is an error. A missing version aborts exactly in the new protocol with a manifest lacking it. An unsupported system aborts exactly when the request and the version lookup have succeeded |
| Fetch.NewUrlShape | src/fetch_chromedriver.rs:21-33 | The new address starts with the base and the looked-up version, and ends with the platform's archive name |
| Fetch.LegacyUrlShape | src/fetch_chromedriver.rs:45-57 | The legacy address starts with the base and the release text, used verbatim, and ends with the system's suffix |
| Fetch.PlatformNamesDistinct | src/fetch_chromedriver.rs:21-58 | The three systems have pairwise different platform names and suffixes |
| Fetch.LastComponent | src/fetch_chromedriver.rs:72 | The file name is the text after the last `/`, with no `/` in it |
| Fetch.UnpackEntry | src/fetch_chromedriver.rs:67-75 | One entry goes through exactly when its write does and, for a file, it has a last component. A directory entry adds a directory. A file entry writes its bytes under its last component. A file entry without one aborts |
| Fetch.Unpack | src/fetch_chromedriver.rs:66-76 | Unpacking succeeds exactly when every entry does, and never removes a file or a directory |
| Fetch.UnpackLastWriterWins | src/fetch_chromedriver.rs:66-76 | After a successful unpacking each name holds the bytes of the last entry written to it, or its old contents if none was. No file is lost |
| Fetch.UnpackMakesDirs | src/fetch_chromedriver.rs:69-70 | A successful unpacking adds exactly the directories of the directory entries |
| Fetch.DirectoryWritesNothing | src/fetch_chromedriver.rs:69-70 | Unpacking a directory entry after any prefix of the archive leaves the files exactly as the prefix left them and adds that directory |
| Fetch.UnpacksEveryFile | src/fetch_chromedriver.rs:66-76 | An archive with a directory, a licence file and the driver leaves both files, not only the driver, and the directory |
| Fetch.FetchChromedriver | src/fetch_chromedriver.rs:3-78 | An address error leaves the disk unchanged. The fetch succeeds exactly when the address, the download and every entry succeed. Files and directories are never removed |
| Lifecycle.PatchedExecutable | src/lib.rs:86-95 | The patched name is `chromedriver_PATCHED` on Linux and macOS and `chromedriver_PATCHED.exe` on Windows. Any other system is `UnsupportedOS` |
| Lifecycle.RawExecutable | src/lib.rs:33-39 | The downloaded name chosen by the retry path is `chromedriver` or `chromedriver.exe`. Any other system is unsupported |
| Lifecycle.Port | src/lib.rs:67 | The port lies in 2000..4999 |
| Lifecycle.Handshake | src/lib.rs:69-77 | The loop connects exactly when one of the allowed attempts succeeds |
| Lifecycle.HandshakeEvents | src/lib.rs:71-77 | The loop only attempts connections to the driver's address with the given settings, and pauses 250 ms. A successful loop ends with its successful attempt |
| Lifecycle.HandshakeFirstSuccess | src/lib.rs:69-77 | If attempt n (from 1) is the first success, there were exactly n attempts and n - 1 pauses |
| Lifecycle.HandshakeAllFail | src/lib.rs:71-77 | If every attempt fails, there were exactly `num_attempts` attempts and as many pauses, the last failure included. With zero allowed attempts none is made |
| Lifecycle.HandshakeBounded | src/lib.rs:71-77 | The loop never makes more attempts than allowed |
| Lifecycle.StartDriverOutcome | src/lib.rs:68-83 | A failed process start gives `SpawnFailed` and no attempt. Once the driver has started, a session is returned exactly when one of the allowed attempts succeeds. That attempt is then the last event, and nothing is killed or reaped. Otherwise every allowed attempt was made, each followed by a pause, and the trace ends with the kill and then the reap |
| Lifecycle.StartDriverBounded | src/lib.rs:68-82 | A driver start spawns once, makes at most `num_attempts` attempts and removes nothing |
| Lifecycle.TryStartChrome | src/lib.rs:48-84 | A needed download that fails ends the run with nothing else done, leaving whatever it wrote before failing. An unsupported system always fails. No file is lost |
| Lifecycle.TryStartFetchesWhenMissing | src/lib.rs:52-59 | The download happens, first, exactly when neither `chromedriver` nor `chromedriver.exe` exists |
| Lifecycle.TryStartPatchesWhenAbsent | src/lib.rs:60-65 | The patch into a name happens exactly when the download step went through, the system is supported, that name is the patched name, and it is absent |
| Lifecycle.TryStartHandshake | src/lib.rs:66-83 | Once the driver starts: the port is in range, the run succeeds exactly when one of the allowed attempts does, and the trace is the preparation, the spawn and the loop, plus kill and reap on failure |
| Lifecycle.TryStartConnectsWith | src/lib.rs:73 | Every attempt goes to `http://127.0.0.1:<port>` with the run's settings |
| Lifecycle.TryStartBounded | src/lib.rs:48-84 | A run starts the driver at most once, makes at most `num_attempts` attempts and removes nothing |
| Lifecycle.ChromeWithCapabilities | src/lib.rs:26-44 | A successful first run is the result. On an unsupported system the result is `UnsupportedOS` |
| Lifecycle.RetryStartsFresh | src/lib.rs:33-43 | After a failed first run the deletion of the downloaded and then of the patched driver is attempted before the second run, whose result is returned unchanged. On Linux and macOS, when no `chromedriver.exe` is present: the second run downloads again if the downloaded driver was deleted, and skips the download if that deletion failed. It patches again if both deletions succeeded and the download does not bring the patched name, and skips the patch if the patched driver's deletion failed |
| Lifecycle.FirstRunSuccessRemovesNothing | src/lib.rs:29-32 | A successful first run removes no file |
| Lifecycle.AtMostTwoRuns | src/lib.rs:26-44 | There are at most two driver starts, six attempts and two removals |
| Lifecycle.ChromeWithCapabilitiesConnectsWith | src/lib.rs:26-44 | Every attempt of either run carries the given settings |
| Lifecycle.ChromeUsesDefaults | src/lib.rs:19-21 | `chrome` connects only with the default builder's settings |
| Lifecycle.FreshStartOnLinux | src/lib.rs:48-84 | On Linux in an empty directory with no failures, the run downloads, patches, spawns and connects once each, in that order, and returns a session on the chosen port |

## Left out

- The driver process: setting permissions, spawning, and the thread that
  drains its output. A start is an oracle outcome plus a `Spawn` event.
  This follows `src/lib.rs`, which treats the start as fallible, although
  the spawn helper would panic instead.
- The HTTP requests, JSON decoding and zip decompression are not modelled.
  Their results are inputs:
  - a decoded manifest, or an error;
  - a release text, or an error;
  - a list of archive entries, or an error.

  A failure to open an entry by index is folded into the archive input.
- Probing the installed browser version (`get_chrome_version`) is not part
  of this model. The version is an input.
- Fetch.UnpackEntry: entry names are used raw, because the zip library's
  name sanitisation (`mangled_name`) and `Path::file_name` are not
  modelled. Directory entries are created under their raw name, and only
  that directory is added, not its parents as `create_dir_all` adds them.
  A file entry is written under the text after its last `/`. The source
  differs when a name holds a NUL, which truncates it, or a `\` on Unix,
  which becomes a separator. It also differs for `.` and `..` components,
  which are dropped: `a/..` is written as `a`, and a bare `..` aborts,
  while the model writes `..`.
- Fetch.UnpackEntry: a failed file write is all-or-nothing. The partial
  file that a failed create or copy can leave behind is not modelled.
- Patch.PatchChromedriver: a failed write is taken to leave the
  destination empty, as the preceding create truncated it. A write that
  fails part-way and leaves a partial file is not modelled.
- Lifecycle.TryStartChrome: the download and the patch are oracle
  outcomes, not calls into the `Fetch` and `Patch` models. The download
  call in `src/lib.rs:58` passes no argument, while
  `src/fetch_chromedriver.rs:3-5` takes an HTTP client, so the two files
  are of different revisions. The patch call matches its definition, but
  the lifecycle's directory is a set of names without contents, so the
  bytes the patch reads and writes are not there to connect to. The
  effect on the directory is the oracle's set of fetched names plus the
  patched name. A failed download still adds the
  oracle's fetched names, since unpacking keeps the entries it wrote before
  failing. A panic inside the download or the patch (`Fetch.Panicked`,
  `Patch.Panicked`) is not modelled. In the source it unwinds through
  `chrome_with_capabilities`, with no second run.
- Patch.PatchBytes: the two out-of-range cases (buffer shorter than 3
  bytes, token past the end) are panics in the source. They are returned
  here as errors.
- The string the scanner builds from each token and then discards has no
  effect and is left out, as is all logging.
- The random generator and the async sleeps are not modelled. Draws come
  from a function. Pauses are `Sleep(250)` events.
- The text of the crate's `USER_AGENT` constant is not part of this model.
  It is an unspecified constant string.
- The client library's capability object is modelled as the ordered list
  of calls made on it.
- The window-management helpers (`src/driver_ext.rs`) and the live-website
  tests are not modelled. They are network-dependent, and the tests
  compare floating-point scores.

=== FILE: base.dfy ===
/**
  Shared vocabulary: optional values, results, and the fixed-width integer
  types the driver manager uses (bytes, `u8` attempt counters, `u32`
  window sizes, `i32` window coordinates).
 */
module Base {

  /** A value that may be absent (Rust's `Option`). */
  datatype Option<+T> = None | Some(value: T)

  /** A value or an error (Rust's `Result`). */
  datatype Result<+T, +E> = Ok(value: T) | Err(error: E)

  /** An unsigned 8-bit value: one byte of a file. */
  newtype byte = x: int | 0 <= x < 0x100

  /** Rust's `u8`, used for the handshake attempt budget. */
  newtype u8 = x: int | 0 <= x < 0x100

  /** Rust's `u32`, used for window sizes. */
  newtype u32 = x: int | 0 <= x < 0x1_0000_0000

  /** Rust's `i32`, used for window positions. */
  newtype i32 = x: int | -0x8000_0000 <= x < 0x8000_0000
}

=== FILE: capabilities.dfy ===
/**
  The capability builder: an immutable record of launch options with
  documented defaults, one setter per option, and a deterministic
  conversion into the ordered list of settings handed to the browser.

  The control-protocol client's capability object is modelled as the
  ordered list of calls made on it (`CapEvent`).
 */
module Capabilities {
  import opened Base
  import opened Text

  /** The crate's `USER_AGENT` constant; its text is not part of this model. */
  const UserAgent: string

  datatype Builder = Builder(
    noSandbox: bool,
    disableDevShmUsage: bool,
    windowSize: (u32, u32),
    userAgent: string,
    hideChromeIsBeingControlled: bool,
    disableSearchEngineChoiceScreen: bool,
    windowPosition: Option<(i32, i32)>,
    headless: bool)

  /** The builder's options, to say which one a setter changes. */
  datatype Field =
    | NoSandboxField
    | DisableDevShmUsageField
    | WindowSizeField
    | UserAgentField
    | HideChromeIsBeingControlledField
    | DisableSearchEngineChoiceScreenField
    | WindowPositionField
    | HeadlessField

  /** `a` and `b` agree on every option except possibly `f`. */
  predicate AgreeExcept(a: Builder, b: Builder, f: Field) {
    && (f == NoSandboxField || a.noSandbox == b.noSandbox)
    && (f == DisableDevShmUsageField || a.disableDevShmUsage == b.disableDevShmUsage)
    && (f == WindowSizeField || a.windowSize == b.windowSize)
    && (f == UserAgentField || a.userAgent == b.userAgent)
    && (f == HideChromeIsBeingControlledField || a.hideChromeIsBeingControlled == b.hideChromeIsBeingControlled)
    && (f == DisableSearchEngineChoiceScreenField || a.disableSearchEngineChoiceScreen == b.disableSearchEngineChoiceScreen)
    && (f == WindowPositionField || a.windowPosition == b.windowPosition)
    && (f == HeadlessField || a.headless == b.headless)
  }

  /** The documented defaults. */
  function Default(): (b: Builder)
    ensures b.noSandbox && b.disableDevShmUsage
    ensures b.windowSize == (1920, 1080) && b.userAgent == UserAgent
    ensures b.hideChromeIsBeingControlled && b.disableSearchEngineChoiceScreen
    ensures b.windowPosition == None && !b.headless
  {
    Builder(true, true, (1920, 1080), UserAgent, true, true, None, false)
  }

  /** `DefaultCapabilitiesBuilder::new()`: the defaults. */
  function New(): (b: Builder)
    ensures b == Default()
  {
    Default()
  }

  function SetNoSandbox(b: Builder, v: bool): (r: Builder)
    ensures r.noSandbox == v && AgreeExcept(r, b, NoSandboxField)
  {
    b.(noSandbox := v)
  }

  function SetDisableDevShmUsage(b: Builder, v: bool): (r: Builder)
    ensures r.disableDevShmUsage == v && AgreeExcept(r, b, DisableDevShmUsageField)
  {
    b.(disableDevShmUsage := v)
  }

  function SetWindowSize(b: Builder, width: u32, height: u32): (r: Builder)
    ensures r.windowSize == (width, height) && AgreeExcept(r, b, WindowSizeField)
  {
    b.(windowSize := (width, height))
  }

  function SetUserAgent(b: Builder, userAgent: string): (r: Builder)
    ensures r.userAgent == userAgent && AgreeExcept(r, b, UserAgentField)
  {
    b.(userAgent := userAgent)
  }

  function SetHideChromeIsBeingControlled(b: Builder, v: bool): (r: Builder)
    ensures r.hideChromeIsBeingControlled == v && AgreeExcept(r, b, HideChromeIsBeingControlledField)
  {
    b.(hideChromeIsBeingControlled := v)
  }

  function SetDisableSearchEngineChoiceScreen(b: Builder, v: bool): (r: Builder)
    ensures r.disableSearchEngineChoiceScreen == v && AgreeExcept(r, b, DisableSearchEngineChoiceScreenField)
  {
    b.(disableSearchEngineChoiceScreen := v)
  }

  function SetWindowPosition(b: Builder, position: Option<(i32, i32)>): (r: Builder)
    ensures r.windowPosition == position && AgreeExcept(r, b, WindowPositionField)
  {
    b.(windowPosition := position)
  }

  function SetHeadless(b: Builder, v: bool): (r: Builder)
    ensures r.headless == v && AgreeExcept(r, b, HeadlessField)
  {
    b.(headless := v)
  }

  /** Moves the window far off-screen, to (-32000, -32000). */
  function PutWindowOffscreen(b: Builder): (r: Builder)
    ensures r.windowPosition == Some((-32000, -32000)) && AgreeExcept(r, b, WindowPositionField)
  {
    b.(windowPosition := Some((-32000, -32000)))
  }

  /** A launch argument, as structured data; `ArgText` gives the exact text passed. */
  datatype ChromeArg =
    | BlinkFeaturesArg                      // --disable-blink-features=AutomationControlled
    | WindowSizeArg(width: u32, height: u32) // window-size=W,H
    | UserAgentArg(userAgent: string)        // user-agent=UA
    | InfobarsArg                           // disable-infobars
    | SearchEngineArg                       // --disable-search-engine-choice-screen
    | WindowPositionArg(x: i32, y: i32)     // --window-position=X,Y
    | HeadlessArg                           // --headless=new

  /** One call made on the client's capability object. */
  datatype CapEvent =
    | NoSandbox                                       // `set_no_sandbox`
    | DisableDevShmUsage                              // `set_disable_dev_shm_usage`
    | Arg(arg: ChromeArg)                             // `add_chrome_arg`
    | ChromeOption(name: string, values: seq<string>) // `add_chrome_option`

  const ExcludeSwitches := ChromeOption("excludeSwitches", ["enable-automation"])

  const BlinkFeaturesText := "--disable-blink-features=AutomationControlled"
  const InfobarsText := "disable-infobars"
  const SearchEngineText := "--disable-search-engine-choice-screen"
  const HeadlessText := "--headless=new"
  const WindowSizePrefix := "window-size="
  const UserAgentPrefix := "user-agent="
  const WindowPositionPrefix := "--window-position="

  /** The text of an argument, as the source formats it. */
  function ArgText(a: ChromeArg): string {
    match a
    case BlinkFeaturesArg => BlinkFeaturesText
    case WindowSizeArg(w, h) => WindowSizePrefix + NatToString(w as nat) + "," + NatToString(h as nat)
    case UserAgentArg(ua) => UserAgentPrefix + ua
    case InfobarsArg => InfobarsText
    case SearchEngineArg => SearchEngineText
    case WindowPositionArg(x, y) => WindowPositionPrefix + IntToString(x as int) + "," + IntToString(y as int)
    case HeadlessArg => HeadlessText
  }

  /** Reads `PREFIX` + a `,`-separated pair back, or fails. */
  function ParsePair(a: string, prefix: string, parse: string -> Option<int>): Option<(int, int)> {
    if !(prefix <= a) then None
    else
      match SplitAt(a[|prefix|..], ',')
      case None => None
      case Some((x, y)) =>
        match (parse(x), parse(y))
        case (Some(u), Some(v)) => Some((u, v))
        case _ => None
  }

  function ParseNatAsInt(s: string): Option<int> {
    match ParseNat(s)
    case Some(n) => Some(n)
    case None => None
  }

  /** Reads an argument's text back. */
  function ParseArg(s: string): Option<ChromeArg> {
    if s == BlinkFeaturesText then Some(BlinkFeaturesArg)
    else if s == InfobarsText then Some(InfobarsArg)
    else if s == SearchEngineText then Some(SearchEngineArg)
    else if s == HeadlessText then Some(HeadlessArg)
    else if UserAgentPrefix <= s then Some(UserAgentArg(s[|UserAgentPrefix|..]))
    else if WindowSizePrefix <= s then
      match ParsePair(s, WindowSizePrefix, ParseNatAsInt)
      case Some((w, h)) =>
        if 0 <= w < 0x1_0000_0000 && 0 <= h < 0x1_0000_0000 then Some(WindowSizeArg(w as u32, h as u32)) else None
      case None => None
    else
      match ParsePair(s, WindowPositionPrefix, ParseInt)
      case Some((x, y)) =>
        if -0x8000_0000 <= x < 0x8000_0000 && -0x8000_0000 <= y < 0x8000_0000 then Some(WindowPositionArg(x as i32, y as i32)) else None
      case None => None
  }

  lemma DigitsHaveNoComma(s: string)
    requires AllDigits(s)
    ensures ',' !in s
  {
    forall i | 0 <= i < |s| ensures s[i] != ',' {
      assert IsDigit(s[i]);
    }
  }

  /** The texts start differently from one another (first and third characters). */
  lemma FixedTextsLeadWith()
    ensures BlinkFeaturesText[0] == '-' && BlinkFeaturesText[2] == 'd'
    ensures SearchEngineText[0] == '-' && SearchEngineText[2] == 'd'
    ensures HeadlessText[0] == '-' && HeadlessText[2] == 'h'
    ensures InfobarsText[0] == 'd' && InfobarsText[2] == 's'
    ensures WindowPositionPrefix[0] == '-' && WindowPositionPrefix[2] == 'w'
    ensures WindowSizePrefix[0] == 'w' && UserAgentPrefix[0] == 'u'
  {
    assert BlinkFeaturesText == "--d" + BlinkFeaturesText[3..];
  }

  /** A pair joined with `,` after a prefix reads back, when the first part has no comma. */
  lemma ParsePairOf(prefix: string, xs: string, ys: string, parse: string -> Option<int>, u: int, v: int)
    requires ',' !in xs && parse(xs) == Some(u) && parse(ys) == Some(v)
    ensures prefix <= prefix + xs + "," + ys
    ensures ParsePair(prefix + xs + "," + ys, prefix, parse) == Some((u, v))
  {
    var s := prefix + xs + "," + ys;
    assert s[..|prefix|] == prefix;
    assert s[|prefix|..] == xs + [','] + ys;
    SplitAtJoin(xs, ys, ',');
  }

  lemma ParseWindowSizeText(w: u32, h: u32)
    ensures ParseArg(ArgText(WindowSizeArg(w, h))) == Some(WindowSizeArg(w, h))
  {
    var s := ArgText(WindowSizeArg(w, h));
    var ws := NatToString(w as nat);
    var hs := NatToString(h as nat);
    ParseNatToString(w as nat);
    ParseNatToString(h as nat);
    DigitsHaveNoComma(ws);
    ParsePairOf(WindowSizePrefix, ws, hs, ParseNatAsInt, w as int, h as int);
    FixedTextsLeadWith();
    assert s[0] == 'w';
  }

  lemma ParseUserAgentText(ua: string)
    ensures ParseArg(ArgText(UserAgentArg(ua))) == Some(UserAgentArg(ua))
  {
    var s := ArgText(UserAgentArg(ua));
    FixedTextsLeadWith();
    assert s[0] == 'u' && s[..|UserAgentPrefix|] == UserAgentPrefix;
    assert s[|UserAgentPrefix|..] == ua;
  }

  lemma ParseWindowPositionText(x: i32, y: i32)
    ensures ParseArg(ArgText(WindowPositionArg(x, y))) == Some(WindowPositionArg(x, y))
  {
    var s := ArgText(WindowPositionArg(x, y));
    var xs := IntToString(x as int);
    var ys := IntToString(y as int);
    ParseIntToString(x as int);
    ParseIntToString(y as int);
    ParsePairOf(WindowPositionPrefix, xs, ys, ParseInt, x as int, y as int);
    FixedTextsLeadWith();
    assert s[0] == '-' && s[2] == 'w';
  }

  /** Every argument text reads back as the argument it was made from. */
  lemma ParseArgText(a: ChromeArg)
    ensures ParseArg(ArgText(a)) == Some(a)
  {
    match a
    case WindowSizeArg(w, h) => ParseWindowSizeText(w, h);
    case UserAgentArg(ua) => ParseUserAgentText(ua);
    case WindowPositionArg(x, y) => ParseWindowPositionText(x, y);
    case _ =>
  }

  /** Distinct arguments have distinct texts. */
  lemma ArgTextInjective(a: ChromeArg, b: ChromeArg)
    requires ArgText(a) == ArgText(b)
    ensures a == b
  {
    ParseArgText(a);
    ParseArgText(b);
  }

  function When(c: bool, events: seq<CapEvent>): seq<CapEvent> {
    if c then events else []
  }

  function OneIf(c: bool): nat {
    if c then 1 else 0
  }

  /** The sandbox and shared-memory switches, each made only when asked for. */
  function Leading(b: Builder): seq<CapEvent> {
    When(b.noSandbox, [NoSandbox]) + When(b.disableDevShmUsage, [DisableDevShmUsage])
  }

  /** The three arguments every session gets. */
  function Fixed(b: Builder): seq<CapEvent> {
    [Arg(BlinkFeaturesArg), Arg(WindowSizeArg(b.windowSize.0, b.windowSize.1)), Arg(UserAgentArg(b.userAgent))]
  }

  function Headless(b: Builder): seq<CapEvent> {
    When(b.headless, [Arg(HeadlessArg)])
  }

  function Position(b: Builder): seq<CapEvent> {
    if b.windowPosition.Some? then [Arg(WindowPositionArg(b.windowPosition.value.0, b.windowPosition.value.1))] else []
  }

  /** What follows the search-engine argument: the window position, then headless mode. */
  function AfterSearch(b: Builder): seq<CapEvent> {
    Position(b) + Headless(b)
  }

  /** What follows the infobar settings. */
  function AfterHiding(b: Builder): seq<CapEvent> {
    When(b.disableSearchEngineChoiceScreen, [Arg(SearchEngineArg)]) + AfterSearch(b)
  }

  /** What follows the three fixed arguments. */
  function Trailing(b: Builder): seq<CapEvent> {
    When(b.hideChromeIsBeingControlled, [Arg(InfobarsArg), ExcludeSwitches]) + AfterHiding(b)
  }

  /** `into_chrome_caps`: the settings made on a fresh capability object, in order. */
  function IntoChromeCaps(b: Builder): (r: seq<CapEvent>)
    ensures |r| >= 3
  {
    Leading(b) + (Fixed(b) + Trailing(b))
  }

  /** Everything after the leading switches is a browser argument or a browser option. */
  lemma TrailingHasNoSwitches(b: Builder)
    ensures forall e :: e in Fixed(b) + Trailing(b) ==> e.Arg? || e.ChromeOption?
  {
  }

  /**
    The sandbox and shared-memory settings are made exactly when their flags
    are set, the sandbox one first.
   */
  lemma IntoChromeCapsLeadingSettings(b: Builder)
    ensures var r := IntoChromeCaps(b);
            && (NoSandbox in r <==> b.noSandbox)
            && (DisableDevShmUsage in r <==> b.disableDevShmUsage)
            && (b.noSandbox ==> r[0] == NoSandbox)
  {
    TrailingHasNoSwitches(b);
    assert NoSandbox !in Fixed(b) + Trailing(b) && DisableDevShmUsage !in Fixed(b) + Trailing(b);
  }

  /**
    After the leading switches come the blink-features, window-size and
    user-agent arguments, always, in that order.
   */
  lemma IntoChromeCapsFixedArguments(b: Builder)
    ensures var r := IntoChromeCaps(b);
            var o := OneIf(b.noSandbox) + OneIf(b.disableDevShmUsage);
            && o + 3 <= |r|
            && (forall j :: 0 <= j < o ==> r[j] == NoSandbox || r[j] == DisableDevShmUsage)
            && r[o] == Arg(BlinkFeaturesArg)
            && r[o + 1] == Arg(WindowSizeArg(b.windowSize.0, b.windowSize.1))
            && r[o + 2] == Arg(UserAgentArg(b.userAgent))
  {
    LeadingSwitches(b);
    ThreeAfter(Leading(b), Fixed(b), Trailing(b));
  }

  /** The leading part holds one event per flag set, each a switch. */
  lemma LeadingSwitches(b: Builder)
    ensures |Leading(b)| == OneIf(b.noSandbox) + OneIf(b.disableDevShmUsage)
    ensures forall j :: 0 <= j < |Leading(b)| ==> Leading(b)[j] == NoSandbox || Leading(b)[j] == DisableDevShmUsage
  {
  }

  /** Indexing into `a + (f + t)` for a three-element `f`. */
  lemma ThreeAfter(a: seq<CapEvent>, f: seq<CapEvent>, t: seq<CapEvent>)
    requires |f| == 3
    ensures |a| + 3 <= |a + (f + t)|
    ensures forall j :: 0 <= j < |a| ==> (a + (f + t))[j] == a[j]
    ensures (a + (f + t))[|a|] == f[0] && (a + (f + t))[|a| + 1] == f[1] && (a + (f + t))[|a| + 2] == f[2]
  {
  }

  /** Membership in the settings list is membership in one of its parts. */
  lemma InIntoChromeCaps(b: Builder, e: CapEvent)
    ensures e in IntoChromeCaps(b) <==>
              || e in Leading(b) || e in Fixed(b)
              || e in When(b.hideChromeIsBeingControlled, [Arg(InfobarsArg), ExcludeSwitches])
              || e in When(b.disableSearchEngineChoiceScreen, [Arg(SearchEngineArg)])
              || e in Position(b) || e in Headless(b)
  {
  }

  /**
    The infobar argument and the `excludeSwitches` option are set together,
    exactly when the automation banner is to be hidden, and the search-engine
    argument exactly when the choice screen is to be skipped.
   */
  lemma IntoChromeCapsHidingSettings(b: Builder)
    ensures var r := IntoChromeCaps(b);
            && (Arg(InfobarsArg) in r <==> b.hideChromeIsBeingControlled)
            && (ExcludeSwitches in r <==> b.hideChromeIsBeingControlled)
            && (Arg(SearchEngineArg) in r <==> b.disableSearchEngineChoiceScreen)
  {
    InIntoChromeCaps(b, Arg(InfobarsArg));
    InIntoChromeCaps(b, ExcludeSwitches);
    InIntoChromeCaps(b, Arg(SearchEngineArg));
  }

  /** A window-position argument is present exactly when a position was set, and carries it. */
  lemma IntoChromeCapsPositionSetting(b: Builder)
    ensures var r := IntoChromeCaps(b);
            forall x, y :: Arg(WindowPositionArg(x, y)) in r <==> b.windowPosition == Some((x, y))
  {
    forall x, y ensures Arg(WindowPositionArg(x, y)) in IntoChromeCaps(b) <==> b.windowPosition == Some((x, y)) {
      InIntoChromeCaps(b, Arg(WindowPositionArg(x, y)));
    }
  }

  /** The headless argument is present exactly in headless mode, and is then the last setting. */
  lemma IntoChromeCapsHeadlessSetting(b: Builder)
    ensures var r := IntoChromeCaps(b);
            && (Arg(HeadlessArg) in r <==> b.headless)
            && (b.headless ==> r[|r| - 1] == Arg(HeadlessArg))
  {
    InIntoChromeCaps(b, Arg(HeadlessArg));
    if b.headless {
      LastOfAppend(Position(b), Headless(b));
      LastOfAppend(When(b.disableSearchEngineChoiceScreen, [Arg(SearchEngineArg)]), AfterSearch(b));
      LastOfAppend(When(b.hideChromeIsBeingControlled, [Arg(InfobarsArg), ExcludeSwitches]), AfterHiding(b));
      LastOfAppend(Fixed(b), Trailing(b));
      LastOfAppend(Leading(b), Fixed(b) + Trailing(b));
    }
  }

  /** The last element of a concatenation with a non-empty right part is that part's last. */
  lemma LastOfAppend(a: seq<CapEvent>, b: seq<CapEvent>)
    requires |b| > 0
    ensures (a + b)[|a + b| - 1] == b[|b| - 1]
  {
  }

  /** Drops a leading event equal to `e`, reporting whether it was there. */
  function Take(evs: seq<CapEvent>, e: CapEvent): (bool, seq<CapEvent>) {
    if |evs| > 0 && evs[0] == e then (true, evs[1..]) else (false, evs)
  }

  /** Reads the two leading switches back. */
  function ReadLeading(evs: seq<CapEvent>): (bool, bool, seq<CapEvent>) {
    var t1 := Take(evs, NoSandbox);
    var t2 := Take(t1.1, DisableDevShmUsage);
    (t1.0, t2.0, t2.1)
  }

  /** Reads the three fixed arguments back: the window size and the user agent. */
  function ReadFixed(evs: seq<CapEvent>): Option<((u32, u32), string, seq<CapEvent>)> {
    if |evs| < 3 || evs[0] != Arg(BlinkFeaturesArg) || !evs[1].Arg? || !evs[1].arg.WindowSizeArg?
       || !evs[2].Arg? || !evs[2].arg.UserAgentArg? then None
    else Some(((evs[1].arg.width, evs[1].arg.height), evs[2].arg.userAgent, evs[3..]))
  }

  /** Reads the infobar settings back. */
  function ReadHiding(evs: seq<CapEvent>): (bool, seq<CapEvent>) {
    if |evs| >= 2 && evs[0] == Arg(InfobarsArg) && evs[1] == ExcludeSwitches then (true, evs[2..]) else (false, evs)
  }

  /** Reads a window position back. */
  function ReadPosition(evs: seq<CapEvent>): (Option<(i32, i32)>, seq<CapEvent>) {
    if |evs| > 0 && evs[0].Arg? && evs[0].arg.WindowPositionArg? then (Some((evs[0].arg.x, evs[0].arg.y)), evs[1..])
    else (None, evs)
  }

  /**
    Reads the options back from a settings list: the inverse of
    `IntoChromeCaps`, used to show the conversion loses nothing.
   */
  function FromChromeCaps(evs: seq<CapEvent>): Option<Builder> {
    var (noSandbox, devShm, e2) := ReadLeading(evs);
    match ReadFixed(e2)
    case None => None
    case Some((size, agent, e3)) =>
      var (hiding, e4) := ReadHiding(e3);
      var (search, e5) := Take(e4, Arg(SearchEngineArg));
      var (position, e6) := ReadPosition(e5);
      var (headless, e7) := Take(e6, Arg(HeadlessArg));
      if e7 != [] then None
      else Some(Builder(noSandbox, devShm, size, agent, hiding, search, position, headless))
  }

  lemma ReadLeadingInverse(b: Builder)
    ensures ReadLeading(IntoChromeCaps(b)) == (b.noSandbox, b.disableDevShmUsage, Fixed(b) + Trailing(b))
  {
    var rest := Fixed(b) + Trailing(b);
    var afterSandbox := When(b.disableDevShmUsage, [DisableDevShmUsage]) + rest;
    assert rest[0] == Arg(BlinkFeaturesArg);
    TakeWhen(b.disableDevShmUsage, DisableDevShmUsage, rest);
    assert afterSandbox[0] != NoSandbox;
    TakeWhen(b.noSandbox, NoSandbox, afterSandbox);
  }

  /** An optional leading event is read back when what follows cannot be mistaken for it. */
  lemma TakeWhen(c: bool, e: CapEvent, rest: seq<CapEvent>)
    requires |rest| > 0 ==> rest[0] != e
    ensures Take(When(c, [e]) + rest, e) == (c, rest)
  {
    if c {
      assert ([e] + rest)[1..] == rest;
    } else {
      assert When(c, [e]) + rest == rest;
    }
  }

  lemma ReadFixedInverse(b: Builder)
    ensures ReadFixed(Fixed(b) + Trailing(b)) == Some((b.windowSize, b.userAgent, Trailing(b)))
  {
    assert (Fixed(b) + Trailing(b))[3..] == Trailing(b);
  }

  lemma ReadTrailingInverse(b: Builder)
    ensures ReadHiding(Trailing(b)) == (b.hideChromeIsBeingControlled, AfterHiding(b))
    ensures Take(AfterHiding(b), Arg(SearchEngineArg)) == (b.disableSearchEngineChoiceScreen, AfterSearch(b))
    ensures ReadPosition(AfterSearch(b)) == (b.windowPosition, Headless(b))
    ensures Take(Headless(b), Arg(HeadlessArg)) == (b.headless, [])
  {
    ReadHidingInverse(b);
    if |AfterSearch(b)| > 0 {
      assert AfterSearch(b)[0].arg.WindowPositionArg? || AfterSearch(b)[0].arg.HeadlessArg?;
    }
    TakeWhen(b.disableSearchEngineChoiceScreen, Arg(SearchEngineArg), AfterSearch(b));
    ReadPositionInverse(b);
    if b.headless {
      assert Headless(b)[1..] == [];
    }
  }

  lemma ReadHidingInverse(b: Builder)
    ensures ReadHiding(Trailing(b)) == (b.hideChromeIsBeingControlled, AfterHiding(b))
  {
    if b.hideChromeIsBeingControlled {
      assert Trailing(b)[2..] == AfterHiding(b);
    } else {
      var a := AfterHiding(b);
      assert Trailing(b) == a;
      if |a| > 0 {
        assert a[0] == Arg(SearchEngineArg) || a[0].arg.WindowPositionArg? || a[0].arg.HeadlessArg?;
      }
    }
  }

  lemma ReadPositionInverse(b: Builder)
    ensures ReadPosition(AfterSearch(b)) == (b.windowPosition, Headless(b))
  {
    if b.windowPosition.Some? {
      assert AfterSearch(b)[1..] == Headless(b);
    } else {
      assert AfterSearch(b) == Headless(b);
    }
  }

  /** The conversion is lossless: the settings list determines every option. */
  lemma IntoChromeCapsRoundTrip(b: Builder)
    ensures FromChromeCaps(IntoChromeCaps(b)) == Some(b)
  {
    ReadLeadingInverse(b);
    ReadFixedInverse(b);
    ReadTrailingInverse(b);
  }

  /** Different option records never produce the same settings. */
  lemma IntoChromeCapsInjective(a: Builder, b: Builder)
    requires IntoChromeCaps(a) == IntoChromeCaps(b)
    ensures a == b
  {
    IntoChromeCapsRoundTrip(a);
    IntoChromeCapsRoundTrip(b);
  }
}

=== FILE: fetch.dfy ===
/**
  Downloading the driver: choosing the archive's address from the installed
  browser version, and unpacking the archive into the working directory.

  The network is replaced by three inputs: the decoded milestone manifest,
  the legacy release lookup (by address), and the decoded archive (by
  address). Unpacking writes into an abstract `Disk`; whether each entry's
  write succeeds is an oracle.
 */
module Fetch {
  import opened Base
  import opened Text
  import opened Platform

  /** Where drivers for browser versions 114 and later are published. */
  const NewBase := "https://edgedl.me.gvt1.com/edgedl/chrome/chrome-for-testing"
  /** Where drivers for older browser versions are published. */
  const LegacyBase := "https://chromedriver.storage.googleapis.com"

  /**
    The branch condition: Rust's `>=` on `str`, a character-by-character
    comparison with `"114"`, not a numeric one.
   */
  predicate UsesNewProtocol(installed: string) {
    !LexLess(installed, "114")
  }

  /** The new protocol's platform name. */
  function NewPlatform(os: Os): (p: Option<string>)
    ensures p.None? <==> os.Other?
  {
    match os
    case Linux => Some("linux64")
    case MacOs => Some("mac-x64")
    case Windows => Some("win64")
    case Other(_) => None
  }

  /** The legacy protocol's archive suffix. */
  function LegacySuffix(os: Os): (s: Option<string>)
    ensures s.None? <==> os.Other?
  {
    match os
    case Linux => Some("linux64")
    case Windows => Some("win32")
    case MacOs => Some("mac64")
    case Other(_) => None
  }

  function NewUrl(version: string, platform: string): string {
    NewBase + "/" + version + "/" + platform + "/chromedriver-" + platform + ".zip"
  }

  function LatestReleaseUrl(installed: string): string {
    LegacyBase + "/LATEST_RELEASE_" + installed
  }

  function LegacyUrl(release: string, suffix: string): string {
    LegacyBase + "/" + release + "/chromedriver_" + suffix + ".zip"
  }

  /** A JSON value, as far as the lookup cares: a string or anything else (including a missing key). */
  datatype Json = JString(text: string) | JOther

  /** The manifest's `milestones` object, mapping each key to the value of its `version` field. */
  type Milestones = map<string, Json>

  /** Looks up `milestones[installed].version` as a string. */
  function VersionFor(milestones: Milestones, installed: string): (v: Option<string>)
    ensures v.Some? <==> installed in milestones && milestones[installed].JString?
  {
    if installed in milestones && milestones[installed].JString? then Some(milestones[installed].text) else None
  }

  /** What aborts the program instead of returning an error. */
  datatype Panic = VersionMissing | UnsupportedOs | NoFileName(entry: string)

  datatype FetchError =
    | ManifestFailed             // the manifest request or its JSON decoding failed
    | ReleaseFailed              // the legacy release lookup failed
    | DownloadFailed(url: string) // the archive request or its decoding failed
    | WriteFailed(entry: string)  // creating a directory or a file failed
    | Panicked(panic: Panic)

  /**
    The archive's address. Network failures are errors; a missing or
    non-string version and an unsupported system abort, after the request
    that precedes them.
   */
  function DriverUrl(installed: string, os: Os, manifest: Result<Milestones, ()>,
                     release: string -> Result<string, ()>): (r: Result<string, FetchError>)
    ensures UsesNewProtocol(installed) ==>
              (r.Ok? <==> manifest.Ok? && VersionFor(manifest.value, installed).Some? && !os.Other?)
    ensures UsesNewProtocol(installed) && manifest.Err? ==> r == Err(ManifestFailed)
    ensures r == Err(Panicked(VersionMissing)) <==>
              UsesNewProtocol(installed) && manifest.Ok? && VersionFor(manifest.value, installed).None?
    ensures !UsesNewProtocol(installed) ==>
              (r.Ok? <==> release(LatestReleaseUrl(installed)).Ok? && !os.Other?)
    ensures !UsesNewProtocol(installed) && release(LatestReleaseUrl(installed)).Err? ==> r == Err(ReleaseFailed)
    ensures r == Err(Panicked(UnsupportedOs)) ==> os.Other?
    ensures UsesNewProtocol(installed) && manifest.Ok? && VersionFor(manifest.value, installed).Some? && os.Other? ==>
              r == Err(Panicked(UnsupportedOs))
    ensures !UsesNewProtocol(installed) && release(LatestReleaseUrl(installed)).Ok? && os.Other? ==>
              r == Err(Panicked(UnsupportedOs))
    ensures r.Ok? && UsesNewProtocol(installed) ==>
              r.value == NewUrl(VersionFor(manifest.value, installed).value, NewPlatform(os).value)
    ensures r.Ok? && !UsesNewProtocol(installed) ==>
              r.value == LegacyUrl(release(LatestReleaseUrl(installed)).value, LegacySuffix(os).value)
  {
    if UsesNewProtocol(installed) then
      match manifest
      case Err(_) => Err(ManifestFailed)
      case Ok(milestones) =>
        match VersionFor(milestones, installed)
        case None => Err(Panicked(VersionMissing))
        case Some(version) =>
          match NewPlatform(os)
          case None => Err(Panicked(UnsupportedOs))
          case Some(platform) => Ok(NewUrl(version, platform))
    else
      match release(LatestReleaseUrl(installed))
      case Err(_) => Err(ReleaseFailed)
      case Ok(body) =>
        match LegacySuffix(os)
        case None => Err(Panicked(UnsupportedOs))
        case Some(suffix) => Ok(LegacyUrl(body, suffix))
  }

  /**
    The new address starts with the base and the version looked up, and ends
    with the platform's archive name; the version can be read back from it.
   */
  lemma NewUrlShape(version: string, platform: string)
    ensures var url := NewUrl(version, platform);
            && NewBase + "/" <= url
            && url[|NewBase| + 1..|NewBase| + 1 + |version|] == version
            && url[|url| - |platform| - 4..] == platform + ".zip"
  {
    var head := NewBase + "/";
    var middle := "/" + platform + "/chromedriver-";
    assert NewUrl(version, platform) == head + version + middle + (platform + ".zip");
    FourParts(head, version, middle, platform + ".zip");
  }

  /**
    The legacy address starts with the base and the release text, used
    verbatim, and ends with the system's archive suffix.
   */
  lemma LegacyUrlShape(release: string, suffix: string)
    ensures var url := LegacyUrl(release, suffix);
            && LegacyBase + "/" <= url
            && url[|LegacyBase| + 1..|LegacyBase| + 1 + |release|] == release
            && url[|url| - |suffix| - 4..] == suffix + ".zip"
  {
    var head := LegacyBase + "/";
    assert LegacyUrl(release, suffix) == head + release + "/chromedriver_" + (suffix + ".zip");
    FourParts(head, release, "/chromedriver_", suffix + ".zip");
  }

  /** Where the parts of a four-part concatenation sit. */
  lemma FourParts(a: string, b: string, c: string, d: string)
    ensures a <= a + b + c + d
    ensures (a + b + c + d)[|a|..|a| + |b|] == b
    ensures (a + b + c + d)[|a| + |b| + |c|..] == d
  {
    var s := a + b + c + d;
    assert s == a + (b + c + d);
    assert s[|a|..] == b + c + d;
    assert s[|a| + |b| + |c|..] == d;
  }

  /** The platform names of the two protocols differ per system, and each system has its own. */
  lemma PlatformNamesDistinct()
    ensures NewPlatform(Linux) != NewPlatform(MacOs) && NewPlatform(MacOs) != NewPlatform(Windows) && NewPlatform(Linux) != NewPlatform(Windows)
    ensures LegacySuffix(Linux) != LegacySuffix(MacOs) && LegacySuffix(MacOs) != LegacySuffix(Windows) && LegacySuffix(Linux) != LegacySuffix(Windows)
  {
  }

  /** The examples the branch condition is known for; the last shows it is not numeric. */
  lemma ProtocolExamples()
    ensures !UsesNewProtocol("113.0.5672.92")
    ensures UsesNewProtocol("114.0.5735.90")
    ensures UsesNewProtocol("115.0.5790.170")
    ensures UsesNewProtocol("99.0.4844.51")
    ensures !UsesNewProtocol("11.0.0")
  {
  }

  function Digit(c: char): nat
    requires IsDigit(c)
  {
    c as int - '0' as int
  }

  /** The literal the installed version is compared with, character by character. */
  lemma Literal114()
    ensures "114"[0] == '1' && "114"[1..] == "14"
    ensures "14"[0] == '1' && "14"[1..] == "4"
    ensures "4"[0] == '4' && "4"[1..] == ""
  {
  }

  /**
    For a version whose major number has three digits, the comparison
    agrees with the numeric one: the new protocol is used exactly from
    major 114 on.
   */
  lemma ThreeDigitMajor(installed: string)
    requires |installed| >= 3 && IsDigit(installed[0]) && IsDigit(installed[1]) && IsDigit(installed[2])
    requires |installed| == 3 || installed[3] == '.'
    ensures UsesNewProtocol(installed) <==>
              100 * Digit(installed[0]) + 10 * Digit(installed[1]) + Digit(installed[2]) >= 114
  {
    var s := installed;
    Literal114();
    if s[0] == '1' {
      assert LexLess(s, "114") == LexLess(s[1..], "14");
      if s[1] == '1' {
        assert LexLess(s[1..], "14") == LexLess(s[2..], "4");
        if s[2] == '4' {
          assert LexLess(s[2..], "4") == LexLess(s[3..], "");
        }
      }
    }
  }

  /**
    For a version whose major number has two digits, the comparison sends
    every major from 12 on to the new protocol, although 12 to 99 are
    older than 114.
   */
  lemma TwoDigitMajor(installed: string)
    requires |installed| >= 3 && IsDigit(installed[0]) && IsDigit(installed[1]) && installed[2] == '.'
    requires installed[0] != '0'
    ensures UsesNewProtocol(installed) <==> 10 * Digit(installed[0]) + Digit(installed[1]) >= 12
  {
    var s := installed;
    Literal114();
    if s[0] == '1' {
      assert LexLess(s, "114") == LexLess(s[1..], "14");
      if s[1] == '1' {
        assert LexLess(s[1..], "14") == LexLess(s[2..], "4");
      }
    }
  }

  /** One archive entry, by its name in the archive. */
  datatype Entry = Entry(name: string, data: seq<byte>)

  /** The working directory: files by name, and created directories. */
  datatype Disk = Disk(files: map<string, seq<byte>>, dirs: set<string>)

  /** The last path component: what follows the last `/`. */
  function LastComponent(s: string): (r: string)
    ensures '/' !in r && |r| <= |s| && r == s[|s| - |r|..]
    ensures |r| < |s| ==> s[|s| - |r| - 1] == '/'
  {
    if |s| == 0 || s[|s| - 1] == '/' then ""
    else
      var r := LastComponent(s[..|s| - 1]) + [s[|s| - 1]];
      assert s[..|s| - 1] + [s[|s| - 1]] == s;
      r
  }

  predicate IsDirectory(e: Entry) {
    |e.name| > 0 && e.name[|e.name| - 1] == '/'
  }

  /** The name a file entry is written under; `None` where the source unwraps nothing. */
  function FileName(e: Entry): Option<string> {
    var c := LastComponent(e.name);
    if c == "" then None else Some(c)
  }

  /** Entry `e` is a file entry written to `n`. */
  predicate WritesTo(e: Entry, n: string) {
    !IsDirectory(e) && FileName(e) == Some(n)
  }

  /** Unpacking entry `e` goes through, given whether its write succeeds. */
  predicate Unpacks(e: Entry, writeOk: bool) {
    writeOk && (IsDirectory(e) || FileName(e).Some?)
  }

  /** The effect of unpacking one entry. */
  function UnpackEntry(d: Disk, e: Entry, writeOk: bool): (r: Result<Disk, FetchError>)
    ensures r.Ok? <==> Unpacks(e, writeOk)
    ensures r.Ok? && IsDirectory(e) ==> r.value == d.(dirs := d.dirs + {e.name})
    ensures r.Ok? && !IsDirectory(e) ==> r.value == d.(files := d.files[FileName(e).value := e.data])
    ensures !IsDirectory(e) && FileName(e).None? ==> r == Err(Panicked(NoFileName(e.name)))
  {
    if IsDirectory(e) then
      if writeOk then Ok(d.(dirs := d.dirs + {e.name})) else Err(WriteFailed(e.name))
    else
      match FileName(e)
      case None => Err(Panicked(NoFileName(e.name)))
      case Some(n) => if writeOk then Ok(d.(files := d.files[n := e.data])) else Err(WriteFailed(e.name))
  }

  /** The disk after a run, and how the run ended. */
  datatype FetchOutcome = FetchOutcome(disk: Disk, result: Result<(), FetchError>)

  /**
    Unpacks the entries in archive order; entry `i + j` is `entries[j]`.
    The first failing entry stops the run, keeping what earlier entries wrote.
   */
  function Unpack(d: Disk, entries: seq<Entry>, writeOk: nat -> bool, i: nat): (r: FetchOutcome)
    ensures r.result.Ok? <==> forall j :: 0 <= j < |entries| ==> Unpacks(entries[j], writeOk(i + j))
    ensures d.files.Keys <= r.disk.files.Keys && d.dirs <= r.disk.dirs
    decreases |entries|
  {
    if |entries| == 0 then FetchOutcome(d, Ok(()))
    else
      match UnpackEntry(d, entries[0], writeOk(i))
      case Err(e) => FetchOutcome(d, Err(e))
      case Ok(d1) =>
        var r := Unpack(d1, entries[1..], writeOk, i + 1);
        assert forall j :: 1 <= j < |entries| ==> entries[j] == entries[1..][j - 1] && i + j == (i + 1) + (j - 1);
        r
  }

  /** Reference definition: the contents the last entry writing to `n` carries, if any. */
  function LastWrite(entries: seq<Entry>, n: string): (r: Option<seq<byte>>)
    ensures r.Some? <==> exists j :: 0 <= j < |entries| && WritesTo(entries[j], n)
  {
    if |entries| == 0 then None
    else
      var last := entries[|entries| - 1];
      if WritesTo(last, n) then Some(last.data)
      else
        var r := LastWrite(entries[..|entries| - 1], n);
        assert forall j :: 0 <= j < |entries| - 1 ==> entries[..|entries| - 1][j] == entries[j];
        r
  }

  /** Entry `e` is a directory entry for `p`. */
  predicate MakesDir(e: Entry, p: string) {
    IsDirectory(e) && e.name == p
  }

  /** Reference definition: the directories the entries create. */
  function DirsMade(entries: seq<Entry>): (s: set<string>)
    ensures forall p :: p in s <==> exists j :: 0 <= j < |entries| && MakesDir(entries[j], p)
  {
    if |entries| == 0 then {}
    else
      var last := entries[|entries| - 1];
      var s := DirsMade(entries[..|entries| - 1]) + (if IsDirectory(last) then {last.name} else {});
      assert forall j :: 0 <= j < |entries| - 1 ==> entries[..|entries| - 1][j] == entries[j];
      s
  }

  /**
    A successful unpacking leaves each name with the contents of the last
    entry written to it, or its old contents if no entry writes it; files
    are never removed.
   */
  lemma {:induction false} UnpackLastWriterWins(d: Disk, entries: seq<Entry>, writeOk: nat -> bool, i: nat)
    requires Unpack(d, entries, writeOk, i).result.Ok?
    ensures var out := Unpack(d, entries, writeOk, i).disk;
            forall n :: (n in out.files <==> n in d.files || LastWrite(entries, n).Some?)
                        && (n in out.files ==> out.files[n] == if LastWrite(entries, n).Some? then LastWrite(entries, n).value else d.files[n])
    decreases |entries|
  {
    if |entries| > 0 {
      var last := entries[|entries| - 1];
      var init := entries[..|entries| - 1];
      assert init + [last] == entries;
      UnpackSnoc(d, init, last, writeOk, i);
      UnpackLastWriterWins(d, init, writeOk, i);
    }
  }

  /** A successful unpacking creates exactly the directory entries' directories. */
  lemma {:induction false} UnpackMakesDirs(d: Disk, entries: seq<Entry>, writeOk: nat -> bool, i: nat)
    requires Unpack(d, entries, writeOk, i).result.Ok?
    ensures Unpack(d, entries, writeOk, i).disk.dirs == d.dirs + DirsMade(entries)
    decreases |entries|
  {
    if |entries| > 0 {
      var last := entries[|entries| - 1];
      var init := entries[..|entries| - 1];
      assert init + [last] == entries;
      UnpackSnoc(d, init, last, writeOk, i);
      UnpackMakesDirs(d, init, writeOk, i);
    }
  }

  /** Unpacking a list is unpacking all but its last entry, then that entry. */
  lemma {:induction false} UnpackSnoc(d: Disk, init: seq<Entry>, last: Entry, writeOk: nat -> bool, i: nat)
    requires Unpack(d, init + [last], writeOk, i).result.Ok?
    ensures Unpack(d, init, writeOk, i).result.Ok?
    ensures UnpackEntry(Unpack(d, init, writeOk, i).disk, last, writeOk(i + |init|)).Ok?
    ensures Unpack(d, init + [last], writeOk, i).disk == UnpackEntry(Unpack(d, init, writeOk, i).disk, last, writeOk(i + |init|)).value
    decreases |init|
  {
    var all := init + [last];
    if |init| == 0 {
      assert all == [last];
      assert all[1..] == [];
    } else {
      assert all[0] == init[0] && all[1..] == init[1..] + [last];
      var d1 := UnpackEntry(d, init[0], writeOk(i)).value;
      UnpackSnoc(d1, init[1..], last, writeOk, i + 1);
    }
  }

  /**
    A directory entry unpacked after `init` leaves the files exactly as
    `init` left them, and adds its own name to the directories.
   */
  lemma DirectoryWritesNothing(d: Disk, init: seq<Entry>, e: Entry, writeOk: nat -> bool, i: nat)
    requires IsDirectory(e) && Unpack(d, init + [e], writeOk, i).result.Ok?
    ensures Unpack(d, init + [e], writeOk, i).disk.files == Unpack(d, init, writeOk, i).disk.files
    ensures Unpack(d, init + [e], writeOk, i).disk.dirs == Unpack(d, init, writeOk, i).disk.dirs + {e.name}
  {
    UnpackSnoc(d, init, e, writeOk, i);
  }

  /**
    `fetch_chromedriver`: chooses the address, downloads the archive and
    unpacks every entry of it.
   */
  function FetchChromedriver(installed: string, os: Os, manifest: Result<Milestones, ()>,
                             release: string -> Result<string, ()>,
                             download: string -> Result<seq<Entry>, ()>,
                             d: Disk, writeOk: nat -> bool): (r: FetchOutcome)
    ensures DriverUrl(installed, os, manifest, release).Err? ==>
              r == FetchOutcome(d, Err(DriverUrl(installed, os, manifest, release).error))
    ensures r.result.Ok? <==>
              && DriverUrl(installed, os, manifest, release).Ok?
              && download(DriverUrl(installed, os, manifest, release).value).Ok?
              && var entries := download(DriverUrl(installed, os, manifest, release).value).value;
                 forall j :: 0 <= j < |entries| ==> Unpacks(entries[j], writeOk(j))
    ensures d.files.Keys <= r.disk.files.Keys && d.dirs <= r.disk.dirs
  {
    match DriverUrl(installed, os, manifest, release)
    case Err(e) => FetchOutcome(d, Err(e))
    case Ok(url) =>
      match download(url)
      case Err(_) => FetchOutcome(d, Err(DownloadFailed(url)))
      case Ok(entries) =>
        Unpack(d, entries, writeOk, 0)
  }

  /** The last component of `dir/name` is `name`. */
  lemma {:induction false} LastComponentOf(dir: string, name: string)
    requires '/' !in name
    ensures LastComponent(dir + "/" + name) == name
    decreases |name|
  {
    var s := dir + "/" + name;
    if |name| == 0 {
      assert s[|s| - 1] == '/';
    } else {
      var shorter := name[..|name| - 1];
      assert s[..|s| - 1] == dir + "/" + shorter;
      assert name[|name| - 1] in name;
      LastComponentOf(dir, shorter);
      assert shorter + [name[|name| - 1]] == name;
    }
  }

  /**
    Every file entry is unpacked, not only the driver: an archive holding a
    directory with a licence file and the driver leaves both files, under
    their last path components.
   */
  lemma UnpacksEveryFile(dir: string, licenceName: string, licence: seq<byte>, driverName: string, driver: seq<byte>)
    requires '/' !in licenceName && '/' !in driverName
    requires licenceName != "" && driverName != "" && licenceName != driverName
    ensures var entries := [Entry(dir + "/", []), Entry(dir + "/" + licenceName, licence), Entry(dir + "/" + driverName, driver)];
            var out := Unpack(Disk(map[], {}), entries, _ => true, 0);
            && out.result.Ok?
            && out.disk.files == map[licenceName := licence, driverName := driver]
            && out.disk.dirs == {dir + "/"}
  {
    var e0 := Entry(dir + "/", []);
    var e1 := Entry(dir + "/" + licenceName, licence);
    var e2 := Entry(dir + "/" + driverName, driver);
    var ok: nat -> bool := _ => true;
    LastComponentOf(dir, licenceName);
    LastComponentOf(dir, driverName);
    assert e0.name[|e0.name| - 1] == '/';
    assert e1.name[|e1.name| - 1] == licenceName[|licenceName| - 1] && licenceName[|licenceName| - 1] in licenceName;
    assert e2.name[|e2.name| - 1] == driverName[|driverName| - 1] && driverName[|driverName| - 1] in driverName;
    var d0 := Disk(map[], {});
    var d1 := Disk(map[], {dir + "/"});
    var d2 := Disk(map[licenceName := licence], {dir + "/"});
    var d3 := Disk(map[licenceName := licence, driverName := driver], {dir + "/"});
    assert IsDirectory(e0);
    assert UnpackEntry(d0, e0, true).Ok?;
    assert UnpackEntry(d0, e0, true).value.dirs == d1.dirs;
    assert UnpackEntry(d0, e0, true) == Ok(d1);
    assert UnpackEntry(d1, e1, true) == Ok(d2);
    assert UnpackEntry(d2, e2, true) == Ok(d3);
    var entries := [e0, e1, e2];
    assert entries[1..] == [e1, e2] && [e1, e2][1..] == [e2] && [e2][1..] == [];
    assert Unpack(d2, [e2], ok, 2) == FetchOutcome(d3, Ok(()));
    assert Unpack(d1, [e1, e2], ok, 1) == FetchOutcome(d3, Ok(()));
  }
}

=== FILE: get_capabilities.dfy ===
/**
  The older, fixed capability list: the same settings the builder makes
  with its defaults, except that the search-engine choice screen is left
  alone.
 */
module LegacyCapabilities {
  import opened Capabilities

  /** `get_capabilities`: a fixed list of settings. */
  function GetCapabilities(): (r: seq<CapEvent>)
    ensures |r| == 7 && r[..2] == [NoSandbox, DisableDevShmUsage]
    ensures ExcludeSwitches in r && Arg(InfobarsArg) in r
    ensures forall e :: e in r ==> e != Arg(SearchEngineArg) && e != Arg(HeadlessArg)
    ensures forall e :: e in r && e.Arg? ==> !e.arg.WindowPositionArg?
  {
    [ NoSandbox,
      DisableDevShmUsage,
      Arg(BlinkFeaturesArg),
      Arg(WindowSizeArg(1920, 1080)),
      Arg(UserAgentArg(UserAgent)),
      Arg(InfobarsArg),
      ExcludeSwitches ]
  }

  /** The fixed list is the builder's conversion of its defaults with the search-engine switch turned off. */
  lemma LegacyListIsBuilderList()
    ensures GetCapabilities() == IntoChromeCaps(SetDisableSearchEngineChoiceScreen(New(), false))
  {
    var b := SetDisableSearchEngineChoiceScreen(New(), false);
    assert Leading(b) == [NoSandbox, DisableDevShmUsage];
    assert Fixed(b) == [Arg(BlinkFeaturesArg), Arg(WindowSizeArg(1920, 1080)), Arg(UserAgentArg(UserAgent))];
    assert AfterHiding(b) == [];
    assert Trailing(b) == [Arg(InfobarsArg), ExcludeSwitches];
  }

  /** The builder's defaults produce the same list plus the search-engine argument, last. */
  lemma DefaultsExtendLegacyList()
    ensures IntoChromeCaps(New()) == GetCapabilities() + [Arg(SearchEngineArg)]
  {
    var d := New();
    assert Leading(d) == [NoSandbox, DisableDevShmUsage];
    assert Trailing(d) == [Arg(InfobarsArg), ExcludeSwitches, Arg(SearchEngineArg)];
  }
}

=== FILE: lifecycle.dfy ===
/**
  Starting a browser session: make sure a patched driver exists (download
  and patch on demand), start it on a random port, and connect to it with
  a bounded number of attempts; on failure, delete the driver files and try
  once more from scratch.

  The working directory is a set of file names. Downloading, patching,
  starting the driver and each connection attempt are oracle outcomes;
  what the program does is recorded as a trace of events.
 */
module Lifecycle {
  import opened Base
  import opened Text
  import opened Platform
  import opened Capabilities

  datatype Error =
    | FetchFailed          // the download returned an error
    | PatchFailed          // the patch returned an error
    | SpawnFailed          // the driver process could not be started
    | UnsupportedOS        // `UnsupportedOS`
    | DriverCreationFailed // `DriverCreationFailed`: no connection attempt succeeded

  /** What the program does, in order. */
  datatype Event =
    | Fetch                                   // download and unpack the driver
    | Patch(dest: string)                     // patch the driver into `dest`
    | Spawn(exe: string, port: nat)           // start `./exe --port=port`
    | Connect(url: string, caps: seq<CapEvent>) // one connection attempt
    | Sleep(millis: nat)
    | Kill                                    // kill the driver process
    | Wait                                    // reap it
    | Remove(name: string)                    // try to delete a file; a failure is ignored

  /** The pause after a failed connection attempt, in milliseconds. */
  const RetryPause := 250

  /** The outcomes of the calls one run makes. */
  datatype RunOracle = RunOracle(
    fetchOk: bool,           // whether the download succeeds
    fetched: set<string>,    // the files it writes, also when it fails part-way
    patchOk: bool,           // whether the patch succeeds
    portDraw: nat,           // the random draw for the port
    spawnOk: bool,           // whether the driver process starts
    answers: seq<bool>,      // whether each connection attempt succeeds (missing ones fail)
    rawRemoved: bool,        // whether deleting the downloaded driver after a failed run succeeds
    patchedRemoved: bool)    // whether deleting the patched driver after a failed run succeeds

  /** A running session: the connection and the driver process, on `port`. */
  datatype Session = Session(exe: string, port: nat)

  /** The working directory afterwards, what happened, and the result. */
  datatype RunOutcome = RunOutcome(files: set<string>, trace: seq<Event>, result: Result<Session, Error>)

  /** `get_patched_chrome_driver_executable`. */
  function PatchedExecutable(os: Os): (r: Result<string, Error>)
    ensures r.Err? <==> os.Other?
    ensures r.Err? ==> r.error == UnsupportedOS
    ensures r.Ok? ==> r.value == if os.IsWindows() then "chromedriver_PATCHED.exe" else "chromedriver_PATCHED"
  {
    match os
    case Linux => Ok("chromedriver_PATCHED")
    case MacOs => Ok("chromedriver_PATCHED")
    case Windows => Ok("chromedriver_PATCHED.exe")
    case Other(_) => Err(UnsupportedOS)
  }

  /** The downloaded driver's name, as the retry path chooses it. */
  function RawExecutable(os: Os): (r: Result<string, Error>)
    ensures r.Err? <==> os.Other?
    ensures r.Ok? ==> r.value == if os.IsWindows() then "chromedriver.exe" else "chromedriver"
  {
    match os
    case Linux => Ok("chromedriver")
    case MacOs => Ok("chromedriver")
    case Windows => Ok("chromedriver.exe")
    case Other(_) => Err(UnsupportedOS)
  }

  /** `random_range(2000..5000)`, from a draw. */
  function Port(draw: nat): (p: nat)
    ensures 2000 <= p < 5000
  {
    2000 + draw % 3000
  }

  function SessionUrl(port: nat): string {
    "http://127.0.0.1:" + NatToString(port)
  }

  /** Whether attempt `k` (counting from 0) succeeds; attempts beyond the answers fail. */
  predicate Answer(answers: seq<bool>, k: nat) {
    k < |answers| && answers[k]
  }

  /**
    The connection loop, from attempt `attempt` (counting from 0) on: each
    failure is followed by a pause, the first success ends it. The flag
    says whether a connection was made.
   */
  function Handshake(url: string, caps: seq<CapEvent>, answers: seq<bool>, numAttempts: nat, attempt: nat): (r: (seq<Event>, bool))
    ensures r.1 <==> exists k :: attempt <= k < numAttempts && Answer(answers, k)
    decreases numAttempts - attempt
  {
    if attempt >= numAttempts then ([], false)
    else if Answer(answers, attempt) then ([Connect(url, caps)], true)
    else
      var rest := Handshake(url, caps, answers, numAttempts, attempt + 1);
      ([Connect(url, caps), Sleep(RetryPause)] + rest.0, rest.1)
  }

  /**
    The loop only attempts connections to `url` with `caps` and pauses; a
    successful loop ends with its successful attempt.
   */
  lemma {:induction false} HandshakeEvents(url: string, caps: seq<CapEvent>, answers: seq<bool>, numAttempts: nat, attempt: nat)
    ensures var r := Handshake(url, caps, answers, numAttempts, attempt);
            forall e :: e in r.0 ==> e == Connect(url, caps) || e == Sleep(RetryPause)
    ensures var r := Handshake(url, caps, answers, numAttempts, attempt);
            r.1 ==> |r.0| > 0 && r.0[|r.0| - 1] == Connect(url, caps)
    decreases numAttempts - attempt
  {
    if attempt < numAttempts && !Answer(answers, attempt) {
      HandshakeEvents(url, caps, answers, numAttempts, attempt + 1);
    }
  }

  /** The kinds of event, to count them. */
  datatype Kind = FetchKind | PatchKind | SpawnKind | ConnectKind | SleepKind | KillKind | WaitKind | RemoveKind

  function KindOf(e: Event): Kind {
    match e
    case Fetch => FetchKind
    case Patch(_) => PatchKind
    case Spawn(_, _) => SpawnKind
    case Connect(_, _) => ConnectKind
    case Sleep(_) => SleepKind
    case Kill => KillKind
    case Wait => WaitKind
    case Remove(_) => RemoveKind
  }

  /** How many events of `t` are of kind `k`. */
  function Count(t: seq<Event>, k: Kind): (n: nat)
    ensures n <= |t|
  {
    if |t| == 0 then 0 else (if KindOf(t[0]) == k then 1 else 0) + Count(t[1..], k)
  }

  lemma {:induction false} CountAppend(a: seq<Event>, b: seq<Event>, k: Kind)
    ensures Count(a + b, k) == Count(a, k) + Count(b, k)
  {
    if |a| > 0 {
      assert (a + b)[1..] == a[1..] + b;
      CountAppend(a[1..], b, k);
    } else {
      assert a + b == b;
    }
  }

  /**
    If attempt `n` (counting from 1) is the first to succeed, the loop made
    `n` attempts and paused `n - 1` times.
   */
  lemma {:induction false} HandshakeFirstSuccess(url: string, caps: seq<CapEvent>, answers: seq<bool>, numAttempts: nat, attempt: nat, k: nat)
    requires attempt <= k < numAttempts && Answer(answers, k)
    requires forall j :: attempt <= j < k ==> !Answer(answers, j)
    ensures var r := Handshake(url, caps, answers, numAttempts, attempt);
            && r.1
            && Count(r.0, ConnectKind) == k - attempt + 1
            && Count(r.0, SleepKind) == k - attempt
    decreases k - attempt
  {
    var r := Handshake(url, caps, answers, numAttempts, attempt);
    if k == attempt {
      assert r.0 == [Connect(url, caps)];
      assert r.0[1..] == [];
    } else {
      var rest := Handshake(url, caps, answers, numAttempts, attempt + 1);
      HandshakeFirstSuccess(url, caps, answers, numAttempts, attempt + 1, k);
      assert r.0 == [Connect(url, caps), Sleep(RetryPause)] + rest.0;
      FailedAttempt(url, caps, rest.0, ConnectKind);
      FailedAttempt(url, caps, rest.0, SleepKind);
    }
  }

  /**
    If every attempt fails, the loop made exactly the allowed number of
    attempts and paused after each of them, the last included.
   */
  lemma {:induction false} HandshakeAllFail(url: string, caps: seq<CapEvent>, answers: seq<bool>, numAttempts: nat, attempt: nat)
    requires attempt <= numAttempts
    requires forall j :: attempt <= j < numAttempts ==> !Answer(answers, j)
    ensures var r := Handshake(url, caps, answers, numAttempts, attempt);
            && !r.1
            && Count(r.0, ConnectKind) == numAttempts - attempt
            && Count(r.0, SleepKind) == numAttempts - attempt
    decreases numAttempts - attempt
  {
    if attempt < numAttempts {
      var r := Handshake(url, caps, answers, numAttempts, attempt);
      var rest := Handshake(url, caps, answers, numAttempts, attempt + 1);
      HandshakeAllFail(url, caps, answers, numAttempts, attempt + 1);
      assert r.0 == [Connect(url, caps), Sleep(RetryPause)] + rest.0;
      FailedAttempt(url, caps, rest.0, ConnectKind);
      FailedAttempt(url, caps, rest.0, SleepKind);
    }
  }

  /** A failed attempt and its pause add one attempt and one pause to the counts. */
  lemma FailedAttempt(url: string, caps: seq<CapEvent>, rest: seq<Event>, k: Kind)
    ensures Count([Connect(url, caps), Sleep(RetryPause)] + rest, k)
         == (if k == ConnectKind || k == SleepKind then 1 else 0) + Count(rest, k)
  {
    var f := [Connect(url, caps), Sleep(RetryPause)];
    assert f[1..] == [Sleep(RetryPause)] && f[1..][1..] == [];
    CountAppend(f, rest, k);
  }

  /** The loop never makes more attempts than allowed. */
  lemma {:induction false} HandshakeBounded(url: string, caps: seq<CapEvent>, answers: seq<bool>, numAttempts: nat, attempt: nat)
    requires attempt <= numAttempts
    ensures Count(Handshake(url, caps, answers, numAttempts, attempt).0, ConnectKind) <= numAttempts - attempt
    decreases numAttempts - attempt
  {
    if attempt < numAttempts && !Answer(answers, attempt) {
      var r := Handshake(url, caps, answers, numAttempts, attempt);
      var rest := Handshake(url, caps, answers, numAttempts, attempt + 1);
      HandshakeBounded(url, caps, answers, numAttempts, attempt + 1);
      assert r.0 == [Connect(url, caps), Sleep(RetryPause)] + rest.0;
      FailedAttempt(url, caps, rest.0, ConnectKind);
    } else if attempt < numAttempts {
      var r := Handshake(url, caps, answers, numAttempts, attempt);
      assert r.0 == [Connect(url, caps)] && r.0[1..] == [];
    }
  }

  /** A trace with no event of kind `k` counts zero. */
  lemma {:induction false} CountNone(t: seq<Event>, k: Kind)
    requires forall e :: e in t ==> KindOf(e) != k
    ensures Count(t, k) == 0
  {
    if |t| > 0 {
      assert forall e :: e in t[1..] ==> e in t;
      CountNone(t[1..], k);
    }
  }

  /** The loop neither starts nor removes anything. */
  lemma HandshakeQuiet(url: string, caps: seq<CapEvent>, answers: seq<bool>, numAttempts: nat, attempt: nat)
    ensures Count(Handshake(url, caps, answers, numAttempts, attempt).0, SpawnKind) == 0
    ensures Count(Handshake(url, caps, answers, numAttempts, attempt).0, RemoveKind) == 0
  {
    var h := Handshake(url, caps, answers, numAttempts, attempt);
    HandshakeEvents(url, caps, answers, numAttempts, attempt);
    CountNone(h.0, SpawnKind);
    CountNone(h.0, RemoveKind);
  }

  /** Neither downloaded driver name is present. */
  predicate NeedsFetch(files: set<string>) {
    "chromedriver" !in files && "chromedriver.exe" !in files
  }

  /** Starting from the driver process: spawn, then the connection loop. */
  function StartDriver(exe: string, caps: seq<CapEvent>, numAttempts: u8, o: RunOracle): (r: (seq<Event>, Result<Session, Error>))
    ensures |r.0| > 0 && r.0[0] == Spawn(exe, Port(o.portDraw))
    ensures r.1.Ok? ==> r.1.value == Session(exe, Port(o.portDraw))
  {
    var port := Port(o.portDraw);
    if !o.spawnOk then ([Spawn(exe, port)], Err(SpawnFailed))
    else
      var h := Handshake(SessionUrl(port), caps, o.answers, numAttempts as nat, 0);
      if h.1 then ([Spawn(exe, port)] + h.0, Ok(Session(exe, port)))
      else ([Spawn(exe, port)] + h.0 + [Kill, Wait], Err(DriverCreationFailed))
  }

  /** The working directory after the download step. */
  function FilesAfterFetch(files: set<string>, o: RunOracle): set<string> {
    if NeedsFetch(files) then files + o.fetched else files
  }

  /** The run gets as far as starting the driver process. */
  predicate ReachesSpawn(files: set<string>, os: Os, o: RunOracle) {
    && (!NeedsFetch(files) || o.fetchOk)
    && PatchedExecutable(os).Ok?
    && (PatchedExecutable(os).value in FilesAfterFetch(files, o) || o.patchOk)
  }

  /**
    `try_start_chrome`: download the driver if neither downloaded name is
    present, fail on an unsupported system, patch if the patched name is
    absent, then start and connect.
   */
  function TryStartChrome(files: set<string>, os: Os, caps: seq<CapEvent>, numAttempts: u8, o: RunOracle): (r: RunOutcome)
    ensures NeedsFetch(files) && !o.fetchOk ==> r == RunOutcome(files + o.fetched, [Fetch], Err(FetchFailed))
    ensures os.Other? ==> r.result.Err?
    ensures files <= r.files
  {
    var fetchNeeded := NeedsFetch(files);
    var pre := if fetchNeeded then [Fetch] else [];
    var files1 := FilesAfterFetch(files, o);
    if fetchNeeded && !o.fetchOk then RunOutcome(files1, pre, Err(FetchFailed))
    else
      match PatchedExecutable(os)
      case Err(e) => RunOutcome(files1, pre, Err(e))
      case Ok(exe) =>
        var patchNeeded := exe !in files1;
        var pre2 := pre + (if patchNeeded then [Patch(exe)] else []);
        if patchNeeded && !o.patchOk then RunOutcome(files1, pre2, Err(PatchFailed))
        else
          var c := StartDriver(exe, caps, numAttempts, o);
          RunOutcome(files1 + {exe}, pre2 + c.0, c.1)
  }

  /** The download runs, first, exactly when neither downloaded driver name is present. */
  lemma TryStartFetchesWhenMissing(files: set<string>, os: Os, caps: seq<CapEvent>, numAttempts: u8, o: RunOracle)
    ensures var t := TryStartChrome(files, os, caps, numAttempts, o).trace;
            && (Fetch in t <==> NeedsFetch(files))
            && (NeedsFetch(files) ==> t[0] == Fetch)
  {
    TryStartShape(files, os, caps, numAttempts, o);
    if ReachesSpawn(files, os, o) {
      StartDriverEvents(PatchedExecutable(os).value, caps, numAttempts, o);
    }
  }

  /** The events before the driver starts: the download, if needed, then the patch, if needed. */
  function Preparation(files: set<string>, os: Os, o: RunOracle): seq<Event>
    requires PatchedExecutable(os).Ok?
  {
    var exe := PatchedExecutable(os).value;
    (if NeedsFetch(files) then [Fetch] else []) + (if exe !in FilesAfterFetch(files, o) then [Patch(exe)] else [])
  }

  /**
    The patch runs only if the download step went through on a supported
    system and the patched name was then absent; it writes the patched name.
   */
  lemma TryStartPatchesWhenAbsent(files: set<string>, os: Os, caps: seq<CapEvent>, numAttempts: u8, o: RunOracle, dest: string)
    ensures Patch(dest) in TryStartChrome(files, os, caps, numAttempts, o).trace <==>
              && (!NeedsFetch(files) || o.fetchOk)
              && PatchedExecutable(os) == Ok(dest)
              && dest !in FilesAfterFetch(files, o)
  {
    TryStartShape(files, os, caps, numAttempts, o);
    if ReachesSpawn(files, os, o) {
      StartDriverEvents(PatchedExecutable(os).value, caps, numAttempts, o);
    }
  }

  /** Starting the driver neither downloads nor patches, and connects only to the driver's port with `caps`. */
  lemma StartDriverEvents(exe: string, caps: seq<CapEvent>, numAttempts: u8, o: RunOracle)
    ensures forall e :: e in StartDriver(exe, caps, numAttempts, o).0 ==> !Preparatory(e)
    ensures forall e :: e in StartDriver(exe, caps, numAttempts, o).0 && e.Connect? ==>
              e == Connect(SessionUrl(Port(o.portDraw)), caps)
  {
    HandshakeEvents(SessionUrl(Port(o.portDraw)), caps, o.answers, numAttempts as nat, 0);
  }

  /** Once the driver is about to start, the run is its preparation, then the driver start. */
  lemma TryStartRunsDriver(files: set<string>, os: Os, caps: seq<CapEvent>, numAttempts: u8, o: RunOracle)
    requires ReachesSpawn(files, os, o)
    ensures var exe := PatchedExecutable(os).value;
            var c := StartDriver(exe, caps, numAttempts, o);
            TryStartChrome(files, os, caps, numAttempts, o) == RunOutcome(FilesAfterFetch(files, o) + {exe}, Preparation(files, os, o) + c.0, c.1)
  {
  }

  /**
    Starting the driver fails with `SpawnFailed` exactly when the process
    does not start, and then makes no attempt. Once it has started, a
    session is returned exactly when one of the first `numAttempts`
    attempts succeeds; that attempt is then the last event and the driver
    is neither killed nor reaped. Otherwise all `numAttempts` attempts were
    made, each followed by a pause, and the driver is killed and reaped, in
    that order, at the end.
   */
  lemma StartDriverOutcome(exe: string, caps: seq<CapEvent>, numAttempts: u8, o: RunOracle)
    ensures var c := StartDriver(exe, caps, numAttempts, o);
            && (c.1 == Err(SpawnFailed) <==> !o.spawnOk)
            && (!o.spawnOk ==> Count(c.0, ConnectKind) == 0)
            && (c.1.Ok? <==> o.spawnOk && exists k :: 0 <= k < numAttempts as nat && Answer(o.answers, k))
    ensures var c := StartDriver(exe, caps, numAttempts, o);
            c.1.Ok? ==> && Kill !in c.0 && Wait !in c.0
                        && c.0[|c.0| - 1] == Connect(SessionUrl(Port(o.portDraw)), caps)
    ensures var c := StartDriver(exe, caps, numAttempts, o);
            o.spawnOk && !(exists k :: 0 <= k < numAttempts as nat && Answer(o.answers, k)) ==>
              c.1 == Err(DriverCreationFailed)
    ensures var c := StartDriver(exe, caps, numAttempts, o);
            c.1 == Err(DriverCreationFailed) ==>
              && |c.0| >= 3 && c.0[|c.0| - 2..] == [Kill, Wait]
              && Count(c.0, ConnectKind) == numAttempts as nat
              && Count(c.0, SleepKind) == numAttempts as nat
  {
    var port := Port(o.portDraw);
    var url := SessionUrl(port);
    var h := Handshake(url, caps, o.answers, numAttempts as nat, 0);
    var c := StartDriver(exe, caps, numAttempts, o);
    if !o.spawnOk {
      assert c.0 == [Spawn(exe, port)] && c.0[1..] == [];
    } else if h.1 {
      HandshakeEvents(url, caps, o.answers, numAttempts as nat, 0);
      assert c.0 == [Spawn(exe, port)] + h.0;
    } else {
      HandshakeAllFail(url, caps, o.answers, numAttempts as nat, 0);
      SpawnThen(exe, port, h.0, ConnectKind);
      SpawnThen(exe, port, h.0, SleepKind);
    }
  }

  /**
    Once the driver is about to start, the run is: preparation, the spawn of
    the patched driver on a port in 2000..4999, and the connection loop at
    that port with the given settings. It succeeds exactly when one of the
    first `numAttempts` attempts does; otherwise the loop is followed by a
    kill and a reap of the driver, and the run fails with
    `DriverCreationFailed`.
   */
  lemma TryStartHandshake(files: set<string>, os: Os, caps: seq<CapEvent>, numAttempts: u8, o: RunOracle)
    requires ReachesSpawn(files, os, o) && o.spawnOk
    ensures var r := TryStartChrome(files, os, caps, numAttempts, o);
            var exe := PatchedExecutable(os).value;
            var port := Port(o.portDraw);
            var h := Handshake(SessionUrl(port), caps, o.answers, numAttempts as nat, 0);
            && 2000 <= port < 5000
            && r.files == FilesAfterFetch(files, o) + {exe}
            && (r.result.Ok? <==> exists k :: 0 <= k < numAttempts as nat && Answer(o.answers, k))
            && (r.result.Ok? ==> r.result.value == Session(exe, port)
                                 && r.trace == Preparation(files, os, o) + [Spawn(exe, port)] + h.0)
            && (r.result.Err? ==> r.result.error == DriverCreationFailed
                                  && r.trace == Preparation(files, os, o) + [Spawn(exe, port)] + h.0 + [Kill, Wait])
  {
    var exe := PatchedExecutable(os).value;
    var port := Port(o.portDraw);
    var h := Handshake(SessionUrl(port), caps, o.answers, numAttempts as nat, 0);
    var pre := Preparation(files, os, o);
    TryStartRunsDriver(files, os, caps, numAttempts, o);
    AppendAssoc(pre, [Spawn(exe, port)], h.0);
    AppendAssoc(pre, [Spawn(exe, port)] + h.0, [Kill, Wait]);
  }

  lemma AppendAssoc(a: seq<Event>, b: seq<Event>, c: seq<Event>)
    ensures a + (b + c) == a + b + c
  {
  }

  /** Every connection attempt of a run goes to the driver's port and carries the run's settings. */
  lemma TryStartConnectsWith(files: set<string>, os: Os, caps: seq<CapEvent>, numAttempts: u8, o: RunOracle)
    ensures forall e :: e in TryStartChrome(files, os, caps, numAttempts, o).trace && e.Connect? ==>
              e == Connect(SessionUrl(Port(o.portDraw)), caps)
  {
    TryStartShape(files, os, caps, numAttempts, o);
    if ReachesSpawn(files, os, o) {
      StartDriverEvents(PatchedExecutable(os).value, caps, numAttempts, o);
    }
  }

  /** Starting the driver spawns it once, then makes at most `numAttempts` attempts. */
  lemma StartDriverBounded(exe: string, caps: seq<CapEvent>, numAttempts: u8, o: RunOracle)
    ensures var t := StartDriver(exe, caps, numAttempts, o).0;
            Count(t, SpawnKind) == 1 && Count(t, ConnectKind) <= numAttempts as nat && Count(t, RemoveKind) == 0
  {
    var port := Port(o.portDraw);
    var h := Handshake(SessionUrl(port), caps, o.answers, numAttempts as nat, 0);
    HandshakeBounded(SessionUrl(port), caps, o.answers, numAttempts as nat, 0);
    HandshakeQuiet(SessionUrl(port), caps, o.answers, numAttempts as nat, 0);
    SpawnThen(exe, port, h.0, SpawnKind);
    SpawnThen(exe, port, h.0, ConnectKind);
    SpawnThen(exe, port, h.0, RemoveKind);
  }

  /**
    The counts of a driver start: the spawn, the loop's events, and on
    failure the kill and the reap.
   */
  lemma SpawnThen(exe: string, port: nat, h: seq<Event>, k: Kind)
    requires k != KillKind && k != WaitKind
    ensures Count([Spawn(exe, port)], k) == (if k == SpawnKind then 1 else 0)
    ensures Count([Spawn(exe, port)] + h, k) == Count([Spawn(exe, port)], k) + Count(h, k)
    ensures Count([Spawn(exe, port)] + h + [Kill, Wait], k) == Count([Spawn(exe, port)], k) + Count(h, k)
  {
    var s := [Spawn(exe, port)];
    assert s[1..] == [];
    assert [Kill, Wait][1..] == [Wait] && [Wait][1..] == [];
    CountAppend(s, h, k);
    CountAppend(s + h, [Kill, Wait], k);
  }

  /** Before the driver starts, a run only downloads and patches. */
  predicate Preparatory(e: Event) { e.Fetch? || e.Patch? }

  /** A run's trace is its preparation alone, or its preparation followed by the driver start. */
  lemma TryStartShape(files: set<string>, os: Os, caps: seq<CapEvent>, numAttempts: u8, o: RunOracle)
    ensures var t := TryStartChrome(files, os, caps, numAttempts, o).trace;
            || (forall e :: e in t ==> Preparatory(e))
            || (ReachesSpawn(files, os, o)
                && t == Preparation(files, os, o) + StartDriver(PatchedExecutable(os).value, caps, numAttempts, o).0)
  {
  }

  /** A run starts the driver at most once, makes at most `numAttempts` attempts and removes nothing. */
  lemma TryStartBounded(files: set<string>, os: Os, caps: seq<CapEvent>, numAttempts: u8, o: RunOracle)
    ensures var t := TryStartChrome(files, os, caps, numAttempts, o).trace;
            Count(t, SpawnKind) <= 1 && Count(t, ConnectKind) <= numAttempts as nat
    ensures Count(TryStartChrome(files, os, caps, numAttempts, o).trace, RemoveKind) == 0
  {
    var t := TryStartChrome(files, os, caps, numAttempts, o).trace;
    TryStartShape(files, os, caps, numAttempts, o);
    if forall e :: e in t ==> Preparatory(e) {
      PreparatoryCounts(t);
    } else {
      var pre := Preparation(files, os, o);
      var c := StartDriver(PatchedExecutable(os).value, caps, numAttempts, o).0;
      StartDriverBounded(PatchedExecutable(os).value, caps, numAttempts, o);
      PreparationCounts(files, os, o);
      CountAppend(pre, c, SpawnKind);
      CountAppend(pre, c, ConnectKind);
      CountAppend(pre, c, RemoveKind);
    }
  }

  /** Downloads and patches neither start, connect to nor remove anything. */
  lemma {:induction false} PreparatoryCounts(t: seq<Event>)
    requires forall e :: e in t ==> Preparatory(e)
    ensures Count(t, SpawnKind) == 0 && Count(t, ConnectKind) == 0 && Count(t, RemoveKind) == 0
  {
    if |t| > 0 {
      assert t[0] in t;
      assert forall e :: e in t[1..] ==> e in t;
      PreparatoryCounts(t[1..]);
    }
  }

  /** The preparation of a run neither starts, connects to nor removes anything. */
  lemma PreparationCounts(files: set<string>, os: Os, o: RunOracle)
    requires PatchedExecutable(os).Ok?
    ensures var t := Preparation(files, os, o);
            Count(t, SpawnKind) == 0 && Count(t, ConnectKind) == 0 && Count(t, RemoveKind) == 0
  {
    PreparatoryCounts(Preparation(files, os, o));
  }

  /**
    `chrome_with_capabilities`: one run with three attempts; if it fails,
    delete the downloaded and the patched driver (ignoring failures) and
    make a second, final run from scratch.
   */
  function ChromeWithCapabilities(files: set<string>, os: Os, caps: seq<CapEvent>, first: RunOracle, second: RunOracle): (r: RunOutcome)
    ensures TryStartChrome(files, os, caps, 3, first).result.Ok? ==> r == TryStartChrome(files, os, caps, 3, first)
    ensures os.Other? ==> r.result == Err(UnsupportedOS)
  {
    var run1 := TryStartChrome(files, os, caps, 3, first);
    if run1.result.Ok? then run1
    else
      match RawExecutable(os)
      case Err(e) => RunOutcome(run1.files, run1.trace, Err(e))
      case Ok(raw) =>
        var exe := PatchedExecutable(os).value;
        var cleaned := AfterRemovals(run1.files, raw, exe, first);
        var run2 := TryStartChrome(cleaned, os, caps, 3, second);
        RunOutcome(run2.files, run1.trace + [Remove(raw), Remove(exe)] + run2.trace, run2.result)
  }

  /**
    The working directory after the two deletions that follow a failed run:
    a name whose deletion fails stays.
   */
  function AfterRemovals(files: set<string>, raw: string, exe: string, o: RunOracle): (r: set<string>)
    ensures r <= files
    ensures o.rawRemoved ==> raw !in r
    ensures o.patchedRemoved ==> exe !in r
    ensures forall n :: n in files && n != raw && n != exe ==> n in r
  {
    files - (if o.rawRemoved then {raw} else {}) - (if o.patchedRemoved then {exe} else {})
  }

  /**
    After a failed first run on a supported system, the deletion of the
    downloaded and then of the patched driver is attempted, and the second
    run's result is the result. On Linux and macOS, with no Windows driver
    lying around, the second run downloads again if the downloaded driver
    was deleted, and patches again if the patched driver was deleted too
    and the download does not bring it. A deletion that fails leaves its
    file, and the second run then skips that step.
   */
  lemma RetryStartsFresh(files: set<string>, os: Os, caps: seq<CapEvent>, first: RunOracle, second: RunOracle)
    requires TryStartChrome(files, os, caps, 3, first).result.Err? && !os.Other?
    ensures var run1 := TryStartChrome(files, os, caps, 3, first);
            var raw := RawExecutable(os).value;
            var exe := PatchedExecutable(os).value;
            var run2 := TryStartChrome(AfterRemovals(run1.files, raw, exe, first), os, caps, 3, second);
            var r := ChromeWithCapabilities(files, os, caps, first, second);
            && r.trace == run1.trace + [Remove(raw), Remove(exe)] + run2.trace
            && r.result == run2.result
    ensures var run1 := TryStartChrome(files, os, caps, 3, first);
            var rest := AfterRemovals(run1.files, "chromedriver", "chromedriver_PATCHED", first);
            var run2 := TryStartChrome(rest, os, caps, 3, second);
            !os.IsWindows() ==>
              && ("chromedriver.exe" !in run1.files && first.rawRemoved ==> Fetch in run2.trace)
              && ("chromedriver" in run1.files && !first.rawRemoved ==> Fetch !in run2.trace)
              && ("chromedriver.exe" !in run1.files && first.rawRemoved && first.patchedRemoved ==>
                    second.fetchOk && "chromedriver_PATCHED" !in second.fetched ==> Patch("chromedriver_PATCHED") in run2.trace)
              && ("chromedriver_PATCHED" in run1.files && !first.patchedRemoved ==> Patch("chromedriver_PATCHED") !in run2.trace)
  {
    var run1 := TryStartChrome(files, os, caps, 3, first);
    var rest := AfterRemovals(run1.files, "chromedriver", "chromedriver_PATCHED", first);
    if !os.IsWindows() {
      TryStartFetchesWhenMissing(rest, os, caps, 3, second);
      TryStartPatchesWhenAbsent(rest, os, caps, 3, second, "chromedriver_PATCHED");
    }
  }

  /** A successful first run is the result, and nothing is removed. */
  lemma FirstRunSuccessRemovesNothing(files: set<string>, os: Os, caps: seq<CapEvent>, first: RunOracle, second: RunOracle)
    requires TryStartChrome(files, os, caps, 3, first).result.Ok?
    ensures Count(ChromeWithCapabilities(files, os, caps, first, second).trace, RemoveKind) == 0
  {
    TryStartBounded(files, os, caps, 3, first);
  }

  /** There are never more than two runs: at most two driver starts and six attempts. */
  lemma AtMostTwoRuns(files: set<string>, os: Os, caps: seq<CapEvent>, first: RunOracle, second: RunOracle)
    ensures var t := ChromeWithCapabilities(files, os, caps, first, second).trace;
            Count(t, SpawnKind) <= 2 && Count(t, ConnectKind) <= 6 && Count(t, RemoveKind) <= 2
  {
    var run1 := TryStartChrome(files, os, caps, 3, first);
    TryStartBounded(files, os, caps, 3, first);
    if run1.result.Err? && !os.Other? {
      var raw := RawExecutable(os).value;
      var exe := PatchedExecutable(os).value;
      var run2 := TryStartChrome(AfterRemovals(run1.files, raw, exe, first), os, caps, 3, second);
      RetryStartsFresh(files, os, caps, first, second);
      TryStartBounded(AfterRemovals(run1.files, raw, exe, first), os, caps, 3, second);
      RetryCounts(run1.trace, raw, exe, run2.trace);
    }
  }

  /** The counts of a retried run add up across the first run, the two removals and the second run. */
  lemma RetryCounts(t1: seq<Event>, raw: string, exe: string, t2: seq<Event>)
    ensures var t := t1 + [Remove(raw), Remove(exe)] + t2;
            && Count(t, SpawnKind) == Count(t1, SpawnKind) + Count(t2, SpawnKind)
            && Count(t, ConnectKind) == Count(t1, ConnectKind) + Count(t2, ConnectKind)
            && Count(t, RemoveKind) == Count(t1, RemoveKind) + 2 + Count(t2, RemoveKind)
  {
    var mid := [Remove(raw), Remove(exe)];
    assert mid[1..] == [Remove(exe)] && mid[1..][1..] == [];
    CountAppend(t1, mid, SpawnKind);
    CountAppend(t1, mid, ConnectKind);
    CountAppend(t1, mid, RemoveKind);
    CountAppend(t1 + mid, t2, SpawnKind);
    CountAppend(t1 + mid, t2, ConnectKind);
    CountAppend(t1 + mid, t2, RemoveKind);
  }

  /** `chrome`: the default settings. */
  function Chrome(files: set<string>, os: Os, first: RunOracle, second: RunOracle): RunOutcome {
    ChromeWithCapabilities(files, os, IntoChromeCaps(New()), first, second)
  }

  /** Every connection attempt of either run carries the given settings. */
  lemma ChromeWithCapabilitiesConnectsWith(files: set<string>, os: Os, caps: seq<CapEvent>, first: RunOracle, second: RunOracle)
    ensures forall e :: e in ChromeWithCapabilities(files, os, caps, first, second).trace && e.Connect? ==> e.caps == caps
  {
    var run1 := TryStartChrome(files, os, caps, 3, first);
    TryStartConnectsWith(files, os, caps, 3, first);
    if run1.result.Err? && !os.Other? {
      var raw := RawExecutable(os).value;
      var exe := PatchedExecutable(os).value;
      RetryStartsFresh(files, os, caps, first, second);
      TryStartConnectsWith(AfterRemovals(run1.files, raw, exe, first), os, caps, 3, second);
    }
  }

  /** Every connection attempt `chrome` makes carries the default settings. */
  lemma ChromeUsesDefaults(files: set<string>, os: Os, first: RunOracle, second: RunOracle)
    ensures forall e :: e in Chrome(files, os, first, second).trace && e.Connect? ==> e.caps == IntoChromeCaps(New())
  {
    ChromeWithCapabilitiesConnectsWith(files, os, IntoChromeCaps(New()), first, second);
  }

  /**
    A first start on Linux in an empty directory: download, patch, start the
    driver, and connect at the first attempt.
   */
  lemma FreshStartOnLinux(caps: seq<CapEvent>, o: RunOracle)
    requires o.fetchOk && o.patchOk && o.spawnOk && "chromedriver_PATCHED" !in o.fetched
    requires |o.answers| > 0 && o.answers[0]
    ensures var r := TryStartChrome({}, Linux, caps, 3, o);
            var port := Port(o.portDraw);
            && r.trace == [Fetch, Patch("chromedriver_PATCHED"), Spawn("chromedriver_PATCHED", port), Connect(SessionUrl(port), caps)]
            && r.result == Ok(Session("chromedriver_PATCHED", port))
            && r.files == o.fetched + {"chromedriver_PATCHED"}
  {
    var port := Port(o.portDraw);
    assert Handshake(SessionUrl(port), caps, o.answers, 3, 0) == ([Connect(SessionUrl(port), caps)], true);
  }
}

=== FILE: patch.dfy ===
/**
  The signature patcher: finds every occurrence of the ASCII marker `cdc_`
  in the driver executable and overwrites the 18-byte token that follows it
  with random letters, leaving every other byte and the length alone.

  The random generator is an oracle `draw`: the n-th call of
  `random_range(0..48)` yields `draw(n) % 48`, so every stream of in-range
  values is representable and the model needs no precondition on it.
 */
module Patch {
  import opened Base
  import opened Platform

  /** Distance from a marker to the start of its token, and token length. */
  const TokenOffset := 4
  const TokenLength := 18

  /** The letters come from the alphabet `a`-`z` then `A`-`Z` (52 letters); only the first 48 are drawn. */
  const AlphabetSize := 52
  const DrawRange := 48

  /** Bytes `i .. i+4` of `f` spell `cdc_`. */
  predicate MarkerAt(f: seq<byte>, i: int) {
    0 <= i && i + 4 <= |f|
    && f[i] == 'c' as byte && f[i + 1] == 'd' as byte && f[i + 2] == 'c' as byte && f[i + 3] == '_' as byte
  }

  /** Byte `k` lies in the token window `[p+4, p+22)` of a marker at `p`. */
  predicate InWindow(p: int, k: int) {
    p + TokenOffset <= k < p + TokenOffset + TokenLength
  }

  /** Byte `k` lies in the token window of some marker of `f`. */
  ghost predicate InSomeToken(f: seq<byte>, k: int) {
    exists p :: MarkerAt(f, p) && InWindow(p, k)
  }

  /** A letter the patcher can write: `a`-`z` or `A`-`V` (`W`-`Z` are never drawn). */
  predicate Drawable(b: byte) {
    ('a' as byte <= b <= 'z' as byte) || ('A' as byte <= b <= 'V' as byte)
  }

  predicate Increasing(ps: seq<nat>) {
    forall a, b :: 0 <= a < b < |ps| ==> ps[a] < ps[b]
  }

  /** The set of marker offsets of `f`. */
  function MarkerSet(f: seq<byte>): set<nat> {
    set p: nat | p < |f| && MarkerAt(f, p)
  }

  /** Position `k` of the alphabet `a`..`z`, `A`..`Z`, as a byte. */
  function AlphabetByte(k: nat): (b: byte)
    requires k < AlphabetSize
    ensures k < DrawRange ==> Drawable(b)
  {
    if k < 26 then ('a' as int + k) as byte else ('A' as int + (k - 26)) as byte
  }

  /** The letter written by the n-th random draw. */
  function Letter(draw: nat -> nat, n: nat): (b: byte)
    ensures Drawable(b)
  {
    AlphabetByte(draw(n) % DrawRange)
  }

  /** Marker offsets at or after `i`, found left to right in the original buffer. */
  function ScanFrom(f: seq<byte>, i: nat): (ps: seq<nat>)
    requires 3 <= |f| && i <= |f| - 3
    ensures forall p :: p in ps <==> i <= p && MarkerAt(f, p)
    ensures Increasing(ps)
    ensures forall j :: 0 <= j < |ps| ==> i <= ps[j]
    decreases |f| - 3 - i
  {
    if i == |f| - 3 then []
    else if MarkerAt(f, i) then [i] + ScanFrom(f, i + 1)
    else ScanFrom(f, i + 1)
  }

  /** The marker offsets of `f` in ascending order: the loop `for i in 0..f.len() - 3`. */
  function Markers(f: seq<byte>): (ps: seq<nat>)
    requires 3 <= |f|
    ensures forall p :: p in ps <==> MarkerAt(f, p)
    ensures Increasing(ps)
  {
    ScanFrom(f, 0)
  }

  /** Overwrites the token of the marker at `p` with draws `base .. base+18`. */
  function WriteToken(buf: seq<byte>, p: nat, draw: nat -> nat, base: nat): (r: seq<byte>)
    requires p + TokenOffset + TokenLength <= |buf|
    ensures |r| == |buf|
    ensures forall k :: 0 <= k < |buf| && !InWindow(p, k) ==> r[k] == buf[k]
    ensures forall k :: 0 <= k < |buf| && InWindow(p, k) ==> r[k] == Letter(draw, base + (k - p - TokenOffset))
  {
    buf[..p + TokenOffset]
    + seq(TokenLength, t requires 0 <= t => Letter(draw, base + t))
    + buf[p + TokenOffset + TokenLength..]
  }

  /** Byte `k` lies in the token window of one of the offsets `ps`. */
  predicate Covered(ps: seq<nat>, k: int) {
    exists j :: 0 <= j < |ps| && InWindow(ps[j], k)
  }

  predicate AllFit(ps: seq<nat>, len: nat) {
    forall j :: 0 <= j < |ps| ==> ps[j] + TokenOffset + TokenLength <= len
  }

  /** The overwrite loop: marker by marker, in order, 18 draws each. */
  function PatchAll(buf: seq<byte>, ps: seq<nat>, draw: nat -> nat, base: nat): (r: seq<byte>)
    requires AllFit(ps, |buf|)
    ensures |r| == |buf|
    decreases |ps|
  {
    if |ps| == 0 then buf
    else PatchAll(WriteToken(buf, ps[0], draw, base), ps[1..], draw, base + TokenLength)
  }

  /** The loop changes exactly the covered bytes, each into a drawable letter. */
  lemma {:induction false} PatchAllFrame(buf: seq<byte>, ps: seq<nat>, draw: nat -> nat, base: nat)
    requires AllFit(ps, |buf|)
    ensures var r := PatchAll(buf, ps, draw, base);
            forall k :: 0 <= k < |buf| && !Covered(ps, k) ==> r[k] == buf[k]
    ensures var r := PatchAll(buf, ps, draw, base);
            forall k :: 0 <= k < |buf| && Covered(ps, k) ==> Drawable(r[k])
    decreases |ps|
  {
    if |ps| > 0 {
      var buf' := WriteToken(buf, ps[0], draw, base);
      PatchAllFrame(buf', ps[1..], draw, base + TokenLength);
      assert forall k :: Covered(ps, k) && !InWindow(ps[0], k) ==> Covered(ps[1..], k) by {
        forall k | Covered(ps, k) && !InWindow(ps[0], k) ensures Covered(ps[1..], k) {
          var j :| 0 <= j < |ps| && InWindow(ps[j], k);
          assert ps[1..][j - 1] == ps[j];
        }
      }
      assert forall k :: Covered(ps[1..], k) ==> Covered(ps, k) by {
        forall k | Covered(ps[1..], k) ensures Covered(ps, k) {
          var j :| 0 <= j < |ps[1..]| && InWindow(ps[1..][j], k);
          assert ps[j + 1] == ps[1..][j];
        }
      }
    }
  }

  /** A byte keeps the letter written by the last marker whose window holds it. */
  lemma {:induction false} LastTokenWins(buf: seq<byte>, ps: seq<nat>, draw: nat -> nat, base: nat, m: nat, k: nat, n: nat)
    requires AllFit(ps, |buf|)
    requires m < |ps| && k < |buf| && InWindow(ps[m], k)
    requires forall j :: m < j < |ps| ==> !InWindow(ps[j], k)
    requires n == base + TokenLength * m + (k - ps[m] - TokenOffset)
    ensures PatchAll(buf, ps, draw, base)[k] == Letter(draw, n)
    decreases m
  {
    var buf' := WriteToken(buf, ps[0], draw, base);
    if m == 0 {
      PatchAllFrame(buf', ps[1..], draw, base + TokenLength);
      assert !Covered(ps[1..], k) by {
        forall j | 0 <= j < |ps[1..]| ensures !InWindow(ps[1..][j], k) {
          assert ps[1..][j] == ps[j + 1];
        }
      }
    } else {
      LastTokenWins(buf', ps[1..], draw, base + TokenLength, m - 1, k, n);
    }
  }

  /**
    The first offset (in order) whose token runs past the end of a buffer of
    length `len`: the scan panics reading that token, before any overwrite.
   */
  function FirstOverrun(ps: seq<nat>, len: nat): (r: Option<nat>)
    requires Increasing(ps)
    ensures r.None? <==> AllFit(ps, len)
    ensures r.Some? ==> r.value in ps && len < r.value + TokenOffset + TokenLength
    ensures r.Some? ==> forall p :: p in ps && p < r.value ==> p + TokenOffset + TokenLength <= len
  {
    if |ps| == 0 then None
    else
      IncreasingTail(ps);
      if len < ps[0] + TokenOffset + TokenLength then Some(ps[0])
      else
        assert forall p :: p in ps ==> p == ps[0] || p in ps[1..] by {
          forall p | p in ps ensures p == ps[0] || p in ps[1..] {
            var j :| 0 <= j < |ps| && ps[j] == p;
            if j > 0 { assert ps[1..][j - 1] == p; }
          }
        }
        var r := FirstOverrun(ps[1..], len);
        assert forall j :: 1 <= j < |ps| ==> ps[j] == ps[1..][j - 1];
        r
  }

  /** Why the patch aborts. Both are panics in the source, not typed errors. */
  datatype PatchError =
    | LengthUnderflow                   // `f.len() - 3` underflows for a buffer shorter than 3 bytes
    | WindowOutOfBounds(position: nat)  // a marker's token runs past the end of the buffer

  /** The patched buffer and the number of tokens overwritten. */
  datatype Patched = Patched(bytes: seq<byte>, count: nat)

  /** The in-memory part of `patch_chromedriver`: scan, then overwrite. */
  function PatchBytes(f: seq<byte>, draw: nat -> nat): (r: Result<Patched, PatchError>)
    ensures r == Err(LengthUnderflow) <==> |f| < 3
    ensures r.Ok? <==> 3 <= |f| && forall p :: MarkerAt(f, p) ==> p + TokenOffset + TokenLength <= |f|
    ensures r.Err? && r.error.WindowOutOfBounds? ==>
              var p := r.error.position;
              MarkerAt(f, p) && |f| < p + TokenOffset + TokenLength
              && forall q :: MarkerAt(f, q) && q < p ==> q + TokenOffset + TokenLength <= |f|
    ensures r.Ok? ==> |r.value.bytes| == |f| && r.value.count == |Markers(f)|
  {
    if |f| < 3 then Err(LengthUnderflow)
    else
      var ps := Markers(f);
      match FirstOverrun(ps, |f|)
      case Some(p) => Err(WindowOutOfBounds(p))
      case None =>
        Ok(Patched(PatchAll(f, ps, draw, 0), |ps|))
  }

  /**
    A successful patch changes only bytes inside some marker's token, the
    marker bytes themselves included among the unchanged, and every byte
    inside a token becomes a drawable letter.
   */
  lemma PatchFrame(f: seq<byte>, draw: nat -> nat)
    requires PatchBytes(f, draw).Ok?
    ensures var out := PatchBytes(f, draw).value.bytes;
            forall k :: 0 <= k < |f| && !InSomeToken(f, k) ==> out[k] == f[k]
    ensures var out := PatchBytes(f, draw).value.bytes;
            forall k :: 0 <= k < |f| && InSomeToken(f, k) ==> Drawable(out[k])
  {
    PatchBytesUnfold(f, draw);
    PatchAllFrame(f, Markers(f), draw, 0);
    CoveredIsToken(f);
  }

  /** Being covered by the scanned offsets is being in some marker's token. */
  lemma CoveredIsToken(f: seq<byte>)
    requires 3 <= |f|
    ensures forall k :: Covered(Markers(f), k) <==> InSomeToken(f, k)
  {
    var ps := Markers(f);
    forall k ensures Covered(ps, k) <==> InSomeToken(f, k) {
      if InSomeToken(f, k) {
        var p :| MarkerAt(f, p) && InWindow(p, k);
        assert p in ps;
        var j :| 0 <= j < |ps| && ps[j] == p;
      }
    }
  }

  /** The patch count equals the number of distinct marker offsets in the input. */
  lemma PatchCount(f: seq<byte>, draw: nat -> nat)
    requires PatchBytes(f, draw).Ok?
    ensures PatchBytes(f, draw).value.count == |MarkerSet(f)|
  {
    var ps := Markers(f);
    assert MarkerSet(f) == Elements(ps);
    IncreasingCard(ps);
  }

  /** The offsets of a sequence, as a set. */
  function Elements(ps: seq<nat>): (s: set<nat>)
    ensures forall p :: p in s <==> p in ps
  {
    if |ps| == 0 then {} else {ps[0]} + Elements(ps[1..])
  }

  lemma {:induction false} IncreasingCard(ps: seq<nat>)
    requires Increasing(ps)
    ensures |Elements(ps)| == |ps|
  {
    if |ps| > 0 {
      var rest := ps[1..];
      IncreasingTail(ps);
      IncreasingCard(rest);
      assert ps[0] !in Elements(rest);
      assert Elements(ps) == {ps[0]} + Elements(rest);
    }
  }

  /** The tail of an increasing sequence is increasing and does not hold its head. */
  lemma IncreasingTail(ps: seq<nat>)
    requires Increasing(ps) && |ps| > 0
    ensures Increasing(ps[1..]) && ps[0] !in ps[1..]
    ensures forall p :: p in ps ==> ps[0] <= p
  {
    var rest := ps[1..];
    forall a, b | 0 <= a < b < |rest| ensures rest[a] < rest[b] {
      assert rest[a] == ps[a + 1] && rest[b] == ps[b + 1];
    }
    forall j | 0 <= j < |rest| ensures rest[j] != ps[0] {
      assert rest[j] == ps[j + 1];
    }
  }

  /** A successful patch is the overwrite loop run over the scanned markers. */
  lemma PatchBytesUnfold(f: seq<byte>, draw: nat -> nat)
    requires PatchBytes(f, draw).Ok?
    ensures 3 <= |f| && AllFit(Markers(f), |f|)
    ensures PatchBytes(f, draw).value.bytes == PatchAll(f, Markers(f), draw, 0)
  {
    assert FirstOverrun(Markers(f), |f|).None?;
  }

  /** The m-th marker's token holds draws `18m .. 18m+17`, unless a later token overlaps it. */
  lemma PatchedTokenContents(f: seq<byte>, draw: nat -> nat, m: nat, k: nat)
    requires PatchBytes(f, draw).Ok?
    requires m < |Markers(f)| && k < |f| && InWindow(Markers(f)[m], k)
    requires forall j :: m < j < |Markers(f)| ==> !InWindow(Markers(f)[j], k)
    ensures PatchBytes(f, draw).value.bytes[k] == Letter(draw, TokenLength * m + (k - Markers(f)[m] - TokenOffset))
  {
    PatchBytesUnfold(f, draw);
    var ps := Markers(f);
    LastTokenWins(f, ps, draw, 0, m, k, TokenLength * m + (k - ps[m] - TokenOffset));
  }

  /** With no marker the patch succeeds, changes nothing and counts zero. */
  lemma NoMarkersNoChange(f: seq<byte>, draw: nat -> nat)
    requires 3 <= |f|
    requires forall p :: !MarkerAt(f, p)
    ensures PatchBytes(f, draw) == Ok(Patched(f, 0))
  {
    var r := PatchBytes(f, draw);
    var ps := Markers(f);
    HeadIsElement(ps);
    assert |ps| == 0;
    assert r.value.bytes == f;
  }

  lemma HeadIsElement(ps: seq<nat>)
    ensures |ps| > 0 ==> ps[0] in ps
  {
  }

  /** A marker whose four bytes lie in no token survives the patch: overwrites never hide it. */
  lemma UntouchedMarkerSurvives(f: seq<byte>, draw: nat -> nat, p: nat)
    requires PatchBytes(f, draw).Ok?
    requires MarkerAt(f, p)
    requires forall k :: p <= k < p + 4 ==> !InSomeToken(f, k)
    ensures MarkerAt(PatchBytes(f, draw).value.bytes, p)
  {
    PatchFrame(f, draw);
  }

  /** Failure modes of the whole `patch_chromedriver` call. */
  datatype FileError =
    | ReadFailed                // the fixed source file cannot be read
    | CreateFailed              // the destination cannot be created
    | Panicked(reason: PatchError)

  /** The file read: chosen by the build target, never by the argument. */
  function SourceName(os: Os): string {
    if os.IsWindows() then "chromedriver.exe" else "chromedriver"
  }

  /**
    `patch_chromedriver(dest)` over a filesystem of named byte contents.
    `createOk` and `writeOk` are the outcomes of creating and of writing the
    destination. A failed create propagates; a failed write leaves the
    freshly created (empty) destination and still succeeds.
   */
  function PatchChromedriver(files: map<string, seq<byte>>, os: Os, dest: string, draw: nat -> nat,
                             createOk: bool, writeOk: bool): (r: Result<map<string, seq<byte>>, FileError>)
    ensures SourceName(os) !in files ==> r == Err(ReadFailed)
    ensures r.Ok? <==> SourceName(os) in files && PatchBytes(files[SourceName(os)], draw).Ok? && createOk
    ensures r.Err? && r.error.Panicked? ==>
              SourceName(os) in files && PatchBytes(files[SourceName(os)], draw) == Err(r.error.reason)
    ensures r.Ok? ==> r.value.Keys == files.Keys + {dest}
    ensures r.Ok? ==> forall n :: n in files && n != dest ==> r.value[n] == files[n]
    ensures r.Ok? && writeOk ==> r.value[dest] == PatchBytes(files[SourceName(os)], draw).value.bytes
    ensures r.Ok? && !writeOk ==> r.value[dest] == []
  {
    var source := SourceName(os);
    if source !in files then Err(ReadFailed)
    else
      match PatchBytes(files[source], draw)
      case Err(e) => Err(Panicked(e))
      case Ok(patched) =>
        if !createOk then Err(CreateFailed)
        else
          var created := files[dest := []];
          if writeOk then Ok(created[dest := patched.bytes]) else Ok(created)
  }
}

=== FILE: platform.dfy ===
/** The host operating system, as reported by `std::env::consts::OS`. */
module Platform {

  datatype Os = Linux | MacOs | Windows | Other(name: string) {

    /** True exactly where `cfg!(windows)` holds. */
    predicate IsWindows() {
      Windows?
    }
  }
}

=== FILE: text.dfy ===
/**
  Text helpers the driver manager relies on: Rust's `{}` formatting of
  integers (with parsers that invert it), Rust's ordering on `str`, and
  splitting at a separator.
 */
module Text {
  import opened Base

  predicate IsDigit(c: char) {
    '0' <= c <= '9'
  }

  predicate AllDigits(s: string) {
    forall i :: 0 <= i < |s| ==> IsDigit(s[i])
  }

  function DigitChar(d: nat): (c: char)
    requires d < 10
    ensures IsDigit(c) && c as int - '0' as int == d
  {
    ('0' as int + d) as char
  }

  /** Decimal rendering of a natural number, as `{}` formats an unsigned integer. */
  function NatToString(n: nat): (s: string)
    ensures 1 <= |s| && AllDigits(s)
    ensures s[0] == '0' <==> n == 0
    decreases n
  {
    if n < 10 then [DigitChar(n)] else NatToString(n / 10) + [DigitChar(n % 10)]
  }

  /** The value of a string of decimal digits (0 for the empty string). */
  function DigitsValue(s: string): nat
    requires AllDigits(s)
  {
    if |s| == 0 then 0 else 10 * DigitsValue(s[..|s| - 1]) + (s[|s| - 1] as int - '0' as int)
  }

  /** Reads a non-empty string of decimal digits back as a number. */
  function ParseNat(s: string): (r: Option<nat>)
    ensures r.Some? <==> 1 <= |s| && AllDigits(s)
  {
    if 1 <= |s| && AllDigits(s) then Some(DigitsValue(s)) else None
  }

  /** Formatting a natural number and parsing it back gives the number. */
  lemma {:induction false} ParseNatToString(n: nat)
    ensures ParseNat(NatToString(n)) == Some(n)
  {
    var s := NatToString(n);
    if n >= 10 {
      ParseNatToString(n / 10);
      assert s[..|s| - 1] == NatToString(n / 10);
      assert DigitsValue(s) == 10 * (n / 10) + n % 10;
    }
  }

  /** Decimal rendering of a signed integer, as `{}` formats `i32`: a minus sign, then the magnitude. */
  function IntToString(i: int): (s: string)
    ensures 1 <= |s| && ',' !in s
    ensures s[0] == '-' <==> i < 0
  {
    if i < 0 then "-" + NatToString(-i) else NatToString(i)
  }

  /** Reads an optionally negative decimal integer. */
  function ParseInt(s: string): Option<int> {
    if 1 <= |s| && s[0] == '-' then
      match ParseNat(s[1..])
      case Some(n) => var m: int := n; Some(-m)
      case None => None
    else
      match ParseNat(s)
      case Some(n) => Some(n)
      case None => None
  }

  /** Formatting a signed integer and parsing it back gives the integer. */
  lemma {:induction false} ParseIntToString(i: int)
    ensures ParseInt(IntToString(i)) == Some(i)
  {
    var s := IntToString(i);
    if i < 0 {
      assert s[0] == '-' && s[1..] == NatToString(-i);
      ParseNatToString(-i);
    } else {
      assert s[0] != '-' && s == NatToString(i);
      ParseNatToString(i);
    }
  }

  /** Rust's `<` on `str`: lexicographic, character by character, a proper prefix first. */
  predicate LexLess(a: string, b: string)
    decreases |a|
  {
    if |b| == 0 then false
    else if |a| == 0 then true
    else if a[0] != b[0] then a[0] < b[0]
    else LexLess(a[1..], b[1..])
  }

  /** Splits `s` at the first occurrence of `c`. */
  function SplitAt(s: string, c: char): (r: Option<(string, string)>)
    ensures r.None? <==> c !in s
    ensures r.Some? ==> r.value.0 + [c] + r.value.1 == s && c !in r.value.0
  {
    if |s| == 0 then None
    else if s[0] == c then Some(([], s[1..]))
    else
      match SplitAt(s[1..], c)
      case None => None
      case Some((x, y)) => Some(([s[0]] + x, y))
  }

  /** Joining two parts with a separator the first part lacks, then splitting, gives the parts. */
  lemma {:induction false} SplitAtJoin(a: string, b: string, c: char)
    requires c !in a
    ensures SplitAt(a + [c] + b, c) == Some((a, b))
  {
    if |a| > 0 {
      assert (a + [c] + b)[1..] == a[1..] + [c] + b;
      SplitAtJoin(a[1..], b, c);
      assert [a[0]] + a[1..] == a;
    }
  }
}
